=== FILE: README.md ===
# Hospital dashboard core, modelled in Dafny

This project models the computational core of a hospital-management web front
end. Each page's logic is modelled in Dafny as pure functions on immutable
datatypes, and properties of it are proved:

- **Health risk** (`HealthRisk`). `computeRisk` scores a patient's age,
  conditions, allergies and medications:
  - each factor's points are capped;
  - the sum is clamped to 100 and banded into low / moderate / high / critical;
  - rule-based recommendations go with the score;
  - `progressColor` colours the bar.
- **Emergency alerts** (`Alerts`).
  - A timer synthesises alerts from six scenario templates.
  - Each new alert is prepended to a list capped at 50.
  - The user acknowledges one alert or all of them, and clears the acknowledged ones.
  - Three counters summarise the list.
- **Real-time monitoring** (`Monitoring`):
  - jittered vital-sign readings and the three-way `getStatus` classifier;
  - the 30-sample chart window;
  - the device panel, with battery drain, signal wander, disconnect and pairing.
- **Prescription records** (`Records`). Each prescription gets a status from
  its dates and the current time. The list is searched and filtered, and the
  statuses are tallied.
- **Doctor dashboard** (`Doctors`). For one doctor it shows:
  - appointments split by status;
  - prescriptions;
  - the distinct patients;
  - a service histogram;
  - the rounded completion rate.
- **New prescription** (`NewPrescription`): the form schema, and the record
  its submit handler appends, including the `PR001`-style id.
- **New patient** (`NewPatient`): the form schema, and the patient record its
  submit handler puts at the front of the patient list. This includes the
  comma-separated allergy and condition lists.

Shared modules:
- `Registry` holds the records the pages share.
- `Seqs` holds `filter`, `find` and `new Set` de-duplication, with their facts.
- `Text` holds the JavaScript string operations the pages use: `toLowerCase`,
  `includes`, `trim`, `split`, `join`, `padStart` and decimal rendering.
- `Ints` holds `Math.min` and `Math.max`.
- `Wrappers` holds `Option`.

Randomness, the clock and date parsing are parameters:
- Every `Math.random()` draw is an integer argument whose range is a `requires`.
- `Date.now()` is an integer argument.
- `new Date(s)` is a function argument returning `None` for an invalid date.

## Model

| member | source | states |
|---|---|---|
| `Registry.FindPatient` | src/pages/HealthRisk/index.tsx:24 | the lookup returns the first patient with the id, and nothing exactly when no patient has it |
| `Registry.FindDoctor` | src/pages/Records/NewPrescription.tsx:85 | the lookup returns the first doctor with the id, and nothing exactly when no doctor has it |
| `Registry.Mentions` | src/pages/HealthRisk/index.tsx:58 | `some(c => c.toLowerCase().includes(k))`: true exactly when some condition, lower-cased, contains the keyword |
| `Seqs.Find` | src/pages/Doctors/DoctorDashboard.tsx:22 | `find` returns the first element satisfying the predicate, or none exactly when none does |
| `Seqs.Filter` | src/pages/Alerts/index.tsx:84 | `filter` keeps exactly the elements satisfying the predicate and never lengthens the list |
| `Seqs.FilterIsSubsequence` | src/pages/Records/index.tsx:52-58 | a filter keeps the original order |
| `Seqs.FilterKeepsAll` | src/pages/Records/index.tsx:52-58 | a filter returns its whole input exactly when every element passes |
| `Seqs.FilterDropsAll` | src/pages/HealthRisk/index.tsx:43 | a filter returns nothing exactly when no element passes |
| `Seqs.FilterIdempotent` | src/pages/Alerts/index.tsx:84 | filtering twice by the same predicate is filtering once |
| `Seqs.CountComplement` | src/pages/Alerts/index.tsx:88-89 | counts under complementary predicates add up to the length |
| `Seqs.CountMonotone` | src/pages/Alerts/index.tsx:88-89 | a stronger predicate never counts more |
| `Seqs.CountDisjoint` | src/pages/Doctors/DoctorDashboard.tsx:26-27 | counts under predicates that never hold together add up to at most the length |
| `Seqs.FilterSnoc` | src/pages/Doctors/DoctorDashboard.tsx:46-48 | filtering distributes over appending one element |
| `Seqs.FilterKeepsOrder` | src/pages/HealthRisk/index.tsx:57-63 | filtering a list strictly ordered by a key keeps it strictly ordered |
| `Seqs.Dedup` | src/pages/Doctors/DoctorDashboard.tsx:31 | `[...new Set(s)]` has no duplicates and holds exactly the values of `s` |
| `Seqs.DedupFirstOrder` | src/pages/Doctors/DoctorDashboard.tsx:31 | the de-duplicated values come in the order of their first occurrences, as a `Set` keeps insertion order |
| `Seqs.DedupFixpoint` | src/pages/Doctors/DoctorDashboard.tsx:31 | a list without duplicates is unchanged by de-duplication |
| `Seqs.DedupHead` | src/pages/Doctors/DoctorDashboard.tsx:31 | the first value leads the de-duplicated list |
| `Text.LowerStr` | src/pages/Records/index.tsx:53-55 | lower-casing keeps the length and folds each ASCII capital |
| `Text.UpperStr` | src/pages/Patients/NewPatient.tsx:88 | upper-casing keeps the length and leaves no ASCII lower-case letter |
| `Text.ContainsEmpty` | src/pages/Records/index.tsx:53 | every string includes the empty search term |
| `Text.SkipSpaces` | src/pages/Patients/NewPatient.tsx:102 | the scan stops at the first non-space at or after its start |
| `Text.DropTrailing` | src/pages/Patients/NewPatient.tsx:102 | the scan stops after the last non-space of the block |
| `Text.Trim` | src/pages/Patients/NewPatient.tsx:102 | `trim` yields a block of the input with no space at either end and only spaces outside it |
| `Text.TrimIdempotent` | src/pages/Patients/NewPatient.tsx:102 | trimming twice is trimming once |
| `Text.TrimAround` | src/pages/Patients/NewPatient.tsx:102 | trimming removes exactly the spaces around a space-free-edged middle block |
| `Text.TrimClean` | src/pages/Patients/NewPatient.tsx:102 | a string with clean edges is its own trim, also after leading spaces are added |
| `Text.Split` | src/pages/Patients/NewPatient.tsx:102-103 | `split` on one character gives one more part than separators, none holding a separator, and joining them back gives the input |
| `Text.JoinEnds` | src/pages/HealthRisk/index.tsx:39 | `join` starts with the first part, then the separator when there is a second part, and ends with the last part |
| `Text.SplitJoin` | src/pages/Patients/NewPatient.tsx:102-103 | splitting a join of separator-free parts recovers the parts |
| `Text.SplitFirstIsPrefix` | src/pages/Patients/NewPatient.tsx:113 | the first part of a split is a prefix of the input |
| `Text.PadStart` | src/pages/Records/NewPrescription.tsx:89 | `padStart` reaches the target length, ends with the input and fills with the pad character |
| `Text.NatToString` | src/pages/Records/NewPrescription.tsx:89 | the rendering is all digits, has no leading zero and denotes the number |
| `Text.IntToString` | src/pages/HealthRisk/index.tsx:33 | the decimal digits of the number without leading zeros, after a `-` when it is negative, so the text is the one a template literal writes |
| `Text.DecimalValueLeadingZeros` | src/pages/Records/NewPrescription.tsx:89 | zero padding does not change the denoted number |
| `Text.ZerosValue` | src/pages/Records/NewPrescription.tsx:89 | a string of zeros denotes zero |
| `HealthRisk.AgeScore` | src/pages/HealthRisk/index.tsx:32 | the age points: 30 exactly above 65, 20 exactly above 50 up to 65, 10 exactly above 40 up to 50, 5 exactly at 40 or below |
| `HealthRisk.RiskLevelOf` | src/pages/HealthRisk/index.tsx:55 | the overall level: critical exactly above 70, high exactly above 50 up to 70, moderate exactly above 25 up to 50, low exactly at 25 or below |
| `HealthRisk.Band` | src/pages/HealthRisk/index.tsx:33 | a factor is high exactly above its high threshold, low exactly at or below its moderate one, never critical |
| `HealthRisk.Score` | src/pages/HealthRisk/index.tsx:28-54 | the overall score lies in [5, 100] |
| `HealthRisk.CountedAllergies` | src/pages/HealthRisk/index.tsx:43 | the counted allergies are the patient's entries in order with exactly the "None" entries dropped: a subsequence holding no "None", every other entry, and as many entries as are not "None" |
| `HealthRisk.NoneAllergiesIgnored` | src/pages/HealthRisk/index.tsx:43-46 | allergy entries reading "None" count nothing: allergy score 0 and no wristband advice |
| `HealthRisk.Fired` | src/pages/HealthRisk/index.tsx:58-62 | the fired advice is exactly the advice whose rule fires, in rule order |
| `HealthRisk.Recommendations` | src/pages/HealthRisk/index.tsx:57-63 | each rule's advice appears exactly when its rule fires, each at most once and in the order the page tests the rules; routine checkups appear exactly when no rule fires, and then alone |
| `HealthRisk.FiredExactly` | src/pages/HealthRisk/index.tsx:57-63 | a rule's advice is among the fired advice exactly when the rule fires; nothing fires exactly when no rule does; routine and no-data advice never fire |
| `HealthRisk.Factors` | src/pages/HealthRisk/index.tsx:31-52 | the rows in page order: age points, capped condition, allergy and medication points, each level banded from the raw points, each with its page description |
| `HealthRisk.Predict` | src/pages/HealthRisk/index.tsx:27-65 | four factor rows in page order; each displayed score is the capped points and each level is banded from the uncapped points; the age and medication rows describe the age and the medication count, the list factors their entries; overall risk is the score of the profile with its level, and the advice is the profile's recommendations |
| `HealthRisk.PredictionAddsUp` | src/pages/HealthRisk/index.tsx:38-54 | the overall risk is the clamped sum of the four displayed scores, each within its cap and never critical, and lies in [5, 100] |
| `HealthRisk.PredictionShape` | src/pages/HealthRisk/index.tsx:27-65 | every prediction for a known patient has four factor rows, an overall risk in [5, 100] and at least one piece of advice |
| `HealthRisk.ComputeRisk` | src/pages/HealthRisk/index.tsx:23-66 | an unknown patient gets the "No patient data available." answer; otherwise the prediction of the first patient with the id, aged the current year minus the birth year |
| `HealthRisk.CappedLevelsAgree` | src/pages/HealthRisk/index.tsx:38-52 | banding the capped score gives the same level as banding the raw points |
| `HealthRisk.ScoreMonotone` | src/pages/HealthRisk/index.tsx:30-54 | more of any factor never lowers the score |
| `HealthRisk.RiskLevelMonotone` | src/pages/HealthRisk/index.tsx:55 | the overall level never drops as the score rises |
| `HealthRisk.ClampReached` | src/pages/HealthRisk/index.tsx:54 | the capped factors can sum to 115, so the clamp to 100 is reached |
| `HealthRisk.WorkedExample` | src/pages/HealthRisk/index.tsx:30-55 | age 55, two conditions, one allergy and three medications score 83, critical |
| `HealthRisk.MessagesDistinct` | src/pages/HealthRisk/index.tsx:57-63 | distinct recommendations have distinct texts |
| `HealthRisk.ProgressColour` | src/pages/HealthRisk/index.tsx:82-87 | red exactly above 70, orange exactly above 50 up to 70, amber exactly above 25 up to 50, green exactly at 25 or below |
| `HealthRisk.LevelColour` | src/pages/HealthRisk/index.tsx:68-73 | `riskColors`: each level has its own colour, critical red, high orange, moderate amber, low green |
| `HealthRisk.ProgressColourMatchesLevel` | src/pages/HealthRisk/index.tsx:82-87 | `progressColor`'s cut-offs equal those of the overall risk level: a score's bar has the colour of the overall level that score would get |
| `HealthRisk.FactorBarMatchesIcon` | src/pages/HealthRisk/index.tsx:142-147 | on a factor row, the bar's colour equals the icon's exactly when the factor adds nothing beyond its base: age at most 50, and no conditions, counted allergies or medications |
| `Alerts.ValueText` | src/pages/Alerts/index.tsx:36-41 | each scenario's reading is its base value plus the draws, printed as plain decimal digits with its unit, a blood pressure as two such numbers around `/`, the temperature as its text followed by `°C` |
| `Alerts.Generate` | src/pages/Alerts/index.tsx:33-52 | a new alert is unacknowledged and names the drawn patient; severity, vital and message come from the drawn scenario, critical exactly for the first three; the value is the scenario's reading, the timestamp the clock, and the id `ALT-` then the clock's digits, `-` and the suffix |
| `Alerts.GeneratedIdsDiffer` | src/pages/Alerts/index.tsx:45 | alerts generated at different milliseconds get different ids, whatever their random suffixes |
| `Alerts.Seed` | src/pages/Alerts/index.tsx:54-57 | the page opens with three alerts, the i-th generated from the i-th draw, none acknowledged |
| `Alerts.Tick` | src/pages/Alerts/index.tsx:62-63 | the new alert goes first, the list keeps min(previous + 1, 50) alerts, and the rest are the newest previous ones in order |
| `Alerts.AcknowledgeWhere` | src/pages/Alerts/index.tsx:73-79 | the selected alerts become acknowledged and nothing else about any alert changes |
| `Alerts.Acknowledge` | src/pages/Alerts/index.tsx:73-76 | exactly the alerts with the id become acknowledged; the others are unchanged |
| `Alerts.AcknowledgeAll` | src/pages/Alerts/index.tsx:78-81 | every alert becomes acknowledged with its other fields unchanged |
| `Alerts.ClearAcknowledged` | src/pages/Alerts/index.tsx:83-86 | clearing keeps exactly the unacknowledged alerts |
| `Alerts.CountsPartition` | src/pages/Alerts/index.tsx:88-89 | active plus acknowledged equals the list length; critical never exceeds active |
| `Alerts.ClearProperties` | src/pages/Alerts/index.tsx:83-89 | clearing keeps the order, removes as many alerts as the acknowledged counter shows, and clearing again changes nothing |
| `Alerts.AcknowledgeAllThenClear` | src/pages/Alerts/index.tsx:78-86 | after acknowledging all, nothing is active and clearing empties the list |
| `Alerts.AcknowledgeActiveCount` | src/pages/Alerts/index.tsx:73-74 | acknowledging an id removes exactly the active alerts with that id from the active count |
| `Alerts.NoUnacknowledge` | src/pages/Alerts/index.tsx:59-86 | no event makes an alert active again; only a newly generated alert is new |
| `Alerts.RunBounded` | src/pages/Alerts/index.tsx:63 | whatever events follow, the list never exceeds 50 alerts |
| `Alerts.SeedWithinCap` | src/pages/Alerts/index.tsx:56 | the seeded list is within the cap and all three are active |
| `Monitoring.GetStatus` | src/pages/Monitoring/index.tsx:51-55 | critical exactly outside the critical limits, normal exactly inside every normal range, warning otherwise |
| `Monitoring.GenerateReading` | src/pages/Monitoring/index.tsx:48-49 | each vital, diastolic included, lies within its variance of the patient's baseline; the timestamp is the draw's |
| `Monitoring.GeneratedNeverCritical` | src/pages/Monitoring/index.tsx:110-117 | no generated reading is critical, for any patient |
| `Monitoring.HasHypertension` | src/pages/Monitoring/index.tsx:76-77 | false for an unknown id; otherwise true exactly when the first patient with the id has a history with a condition mentioning hypertension |
| `Monitoring.Push` | src/pages/Monitoring/index.tsx:100 | the window gains the new reading last and keeps at most the 29 newest previous ones |
| `Monitoring.Reset` | src/pages/Monitoring/index.tsx:90-94 | selecting a patient starts a consistent window of twenty readings, the last one current |
| `Monitoring.TickVitals` | src/pages/Monitoring/index.tsx:97-100 | the new reading is current and the window is the previous window with it pushed, and stays consistent |
| `Monitoring.RunVitalsWindow` | src/pages/Monitoring/index.tsx:96-100 | after k ticks from n readings the window holds min(n + k, 30) and stays consistent |
| `Monitoring.Clamp` | src/pages/Monitoring/index.tsx:106 | the clamped value lies in the range, is the input inside it and the nearer bound outside it |
| `Monitoring.TickDevice` | src/pages/Monitoring/index.tsx:103-108 | battery becomes max(5, battery minus the drained point); a connected device's signal becomes its jittered signal clamped to [60, 100] and it syncs; any other has signal 0 and keeps its sync time; nothing else changes |
| `Monitoring.TickDevices` | src/pages/Monitoring/index.tsx:103 | every device ticks with its own draw |
| `Monitoring.UpdateDevice` | src/pages/Monitoring/index.tsx:123-124 | only devices with the id are replaced |
| `Monitoring.Toggled` | src/pages/Monitoring/index.tsx:125-134 | a connected device disconnects and loses its signal; any other starts pairing with its signal kept |
| `Monitoring.ToggleDevice` | src/pages/Monitoring/index.tsx:122-136 | only the clicked device is toggled |
| `Monitoring.Paired` | src/pages/Monitoring/index.tsx:129 | pairing ends connected at signal 85 |
| `Monitoring.CompletePairing` | src/pages/Monitoring/index.tsx:127-130 | only the paired device changes |
| `Monitoring.TickNeverRaisesBand` | src/pages/Monitoring/index.tsx:63-67 | a tick never moves a device to a fuller battery icon, whatever its battery level |
| `Monitoring.BatteryIcon` | src/pages/Monitoring/index.tsx:63-67 | full exactly above 60, medium exactly above 25 up to 60, low exactly at 25 or below |
| `Monitoring.ApplyDeviceOk` | src/pages/Monitoring/index.tsx:103-135 | every panel event keeps every device's battery and signal within bounds |
| `Monitoring.DevicesAlwaysOk` | src/pages/Monitoring/index.tsx:32-38 | from the initial devices, any run of events keeps the panel within bounds |
| `Monitoring.RunKeepsOk` | src/pages/Monitoring/index.tsx:103-135 | a run of events preserves the panel invariant |
| `Monitoring.ConnectedCount` | src/pages/Monitoring/index.tsx:142 | the count never exceeds the devices; it is all of them exactly when every device is connected and 0 exactly when none is |
| `Monitoring.ConnectedCountStep` | src/pages/Monitoring/index.tsx:142 | the empty panel counts 0 and adding a device adds one exactly when it is connected, which fixes the count of every panel as its number of connected devices |
| `Monitoring.InitialConnectedCount` | src/pages/Monitoring/index.tsx:142 | the header of the initial panel counts four connected devices |
| `Records.Status` | src/pages/Records/index.tsx:24-32 | follow-up due exactly when a valid follow-up date is in the future; otherwise completed exactly when more than 30 days have passed, active otherwise |
| `Records.StatusMonotoneInTime` | src/pages/Records/index.tsx:24-32 | later, a completed prescription stays completed, and a follow-up still due was due before |
| `Records.WithStatus` | src/pages/Records/index.tsx:47-50 | every prescription is paired with its status, in order |
| `Records.Filtered` | src/pages/Records/index.tsx:52-58 | the list keeps exactly the rows matching the search and both filters |
| `Records.FilteredIsSubsequence` | src/pages/Records/index.tsx:52-58 | the filtered list keeps the order |
| `Records.ResetFiltersKeepsAll` | src/pages/Records/index.tsx:42-44 | with the initial empty search and both filters "all", every row shows |
| `Records.Tally` | src/pages/Records/index.tsx:60-65 | each tile counts the rows with its status, and the three tiles add up to the total |
| `Records.StatusPartition` | src/pages/Records/index.tsx:62-64 | every row has exactly one of the three statuses |
| `Records.StatusFilterMatchesTile` | src/pages/Records/index.tsx:57-64 | choosing a status filter shows as many rows as that status's tile counts |
| `Doctors.DoctorAppointments` | src/pages/Doctors/DoctorDashboard.tsx:25 | exactly the doctor's appointments, in their order, as many as the doctor has |
| `Doctors.WithStatus` | src/pages/Doctors/DoctorDashboard.tsx:26-27 | exactly the appointments with the status, in their order, as many as have it, which is the Scheduled or Completed tile |
| `Doctors.DoctorPrescriptions` | src/pages/Doctors/DoctorDashboard.tsx:28 | exactly the doctor's prescriptions, in their order, as many as the Prescriptions tile counts |
| `Doctors.FiltersStep` | src/pages/Doctors/DoctorDashboard.tsx:25-28 | empty lists give empty lists, and an added appointment or prescription is appended to a list exactly when it belongs there, which fixes every list |
| `Doctors.ScheduledCompletedDisjoint` | src/pages/Doctors/DoctorDashboard.tsx:26-27 | scheduled plus completed never exceeds the doctor's appointments |
| `Doctors.UniquePatientIds` | src/pages/Doctors/DoctorDashboard.tsx:31 | each patient id of the appointments exactly once |
| `Doctors.PatientsWithIds` | src/pages/Doctors/DoctorDashboard.tsx:32 | exactly the registry patients whose id is listed, in registry order with none repeated |
| `Doctors.DoctorPatientsExact` | src/pages/Doctors/DoctorDashboard.tsx:25-32 | a patient card shows exactly when the patient has an appointment with the doctor |
| `Doctors.AddService` | src/pages/Doctors/DoctorDashboard.tsx:47 | counting one appointment raises the histogram total by one |
| `Doctors.AddServiceKeys` | src/pages/Doctors/DoctorDashboard.tsx:47 | a service name is appended exactly when it is new |
| `Doctors.AddServiceCount` | src/pages/Doctors/DoctorDashboard.tsx:47 | only the counted service's count goes up, by one |
| `Doctors.AddServicePositive` | src/pages/Doctors/DoctorDashboard.tsx:47 | every count stays at least one |
| `Doctors.ServiceHistogram` | src/pages/Doctors/DoctorDashboard.tsx:45-49 | the counts add up to the number of appointments |
| `Doctors.HistogramShape` | src/pages/Doctors/DoctorDashboard.tsx:45-49 | one entry per distinct service, in order of first appearance, each positive |
| `Doctors.HistogramCounts` | src/pages/Doctors/DoctorDashboard.tsx:45-49 | each entry counts exactly that service's appointments |
| `Doctors.CompletionRate` | src/pages/Doctors/DoctorDashboard.tsx:58-60 | 0 without appointments; otherwise within half a point of the exact percentage, and in [0, 100] |
| `Doctors.RoundedPercent` | src/pages/Doctors/DoctorDashboard.tsx:59 | rounding half up lands within half a point of the exact percentage |
| `Doctors.Dashboard` | src/pages/Doctors/DoctorDashboard.tsx:18-60 | no page exactly for an unknown doctor; otherwise the first doctor with the id, their appointments, the scheduled and completed ones among them, their prescriptions, the distinct patient ids and patients, the service histogram and the completion rate of those lists, in [0, 100] |
| `NewPrescription.ValidMedication` | src/pages/Records/NewPrescription.tsx:39-45 | a medication needs a name of at least 3 characters and a non-empty dosage, frequency and duration |
| `NewPrescription.ValidForm` | src/pages/Records/NewPrescription.tsx:47-56 | a form needs a patient, a doctor, a date, a diagnosis of at least 3 characters and at least one medication, each valid |
| `NewPrescription.SchemaRejects` | src/pages/Records/NewPrescription.tsx:40-52 | no medications, a short diagnosis or an empty dosage makes the form invalid |
| `NewPrescription.PrescriptionId` | src/pages/Records/NewPrescription.tsx:89 | `PR` then digits denoting count + 1, five characters while the count is below 999, and no leading zero from 100 on, which fixes the id |
| `NewPrescription.SmallNumberDigits` | src/pages/Records/NewPrescription.tsx:89 | numbers below 1000 render in at most three digits, and numbers from 100 on in at least three |
| `NewPrescription.PrescriptionIdInjective` | src/pages/Records/NewPrescription.tsx:89 | the id encodes the count, so distinct counts give distinct ids |
| `NewPrescription.NameOrUnknown` | src/pages/Records/NewPrescription.tsx:91-93 | a found, non-empty name is kept; otherwise "Unknown" |
| `NewPrescription.FollowUpOf` | src/pages/Records/NewPrescription.tsx:104 | a follow-up exists exactly when a date was entered, with notes defaulting to empty |
| `NewPrescription.Build` | src/pages/Records/NewPrescription.tsx:88-106 | the record copies the form, every medication one-to-one, with the sequential id and looked-up names |
| `NewPrescription.BuildMeetsSchema` | src/pages/Records/NewPrescription.tsx:39-56 | every medication of a built record meets the medication schema, and the record names a patient, a doctor and a date |
| `NewPrescription.Submit` | src/pages/Records/NewPrescription.tsx:82-106 | exactly one record is appended, the others untouched, with id number equal to the new length |
| `NewPrescription.AppendKeepsSequential` | src/pages/Records/NewPrescription.tsx:89 | appending the next sequential id keeps every id at its position |
| `NewPrescription.SubmitKeepsIdsSequential` | src/pages/Records/NewPrescription.tsx:88-89 | submitting keeps the ids sequential |
| `NewPrescription.SequentialIdsDistinct` | src/pages/Records/NewPrescription.tsx:89 | sequential ids never repeat |
| `NewPrescription.UnknownNames` | src/pages/Records/NewPrescription.tsx:84-93 | a failed lookup names the patient or doctor "Unknown" |
| `NewPatient.ValidForm` | src/pages/Patients/NewPatient.tsx:39-55 | the length rules on name, date of birth, address, phone and emergency contact, and the gender enumeration |
| `NewPatient.SchemaRejects` | src/pages/Patients/NewPatient.tsx:40-45 | a short name, an unknown gender or a short phone number makes the form invalid |
| `NewPatient.SplitList` | src/pages/Patients/NewPatient.tsx:102-103 | nothing entered gives no items; otherwise item i is the trimmed i-th piece of the comma split, one per comma plus one, each comma-free and trimmed |
| `NewPatient.Spaced` | src/pages/Patients/NewPatient.tsx:102 | each item with a space in front |
| `NewPatient.SpacedJoin` | src/pages/Patients/NewPatient.tsx:102 | a space before a `", "`-join is the `","`-join of the space-led items |
| `NewPatient.JoinPieces` | src/pages/Patients/NewPatient.tsx:102 | the `","`-join of the pieces is the `", "`-join of the items |
| `NewPatient.PiecesCommaFree` | src/pages/Patients/NewPatient.tsx:102 | no piece holds a comma |
| `NewPatient.SplitPieces` | src/pages/Patients/NewPatient.tsx:102 | splitting a `", "`-join on commas gives the pieces |
| `NewPatient.TrimPiece` | src/pages/Patients/NewPatient.tsx:102 | trimming each piece recovers its item |
| `NewPatient.ListRoundTrip` | src/pages/Patients/NewPatient.tsx:102-103 | items entered separated by `", "` come back as the same list |
| `NewPatient.ShortId` | src/pages/Patients/NewPatient.tsx:88 | the id is the first eight characters upper-cased |
| `NewPatient.DatePart` | src/pages/Patients/NewPatient.tsx:113 | the registered date is the prefix of the timestamp up to its first `T`, or all of it when there is none |
| `NewPatient.Build` | src/pages/Patients/NewPatient.tsx:87-114 | the record copies the form, defaults the blood type to "Unknown", has insurance exactly when a provider was entered, and is active with no medications or surgeries |
| `NewPatient.BuildMeetsSchema` | src/pages/Patients/NewPatient.tsx:39-55 | the record built from a valid form meets the schema's rules on every field it copies |
| `NewPatient.Register` | src/pages/Patients/NewPatient.tsx:87 | the new patient goes first and the others follow unchanged |
| `NewPatient.RegisteredIsFound` | src/pages/Patients/NewPatient.tsx:87-88 | a lookup by the new id finds the new patient |
| `NewPatient.OthersStillFound` | src/pages/Patients/NewPatient.tsx:87 | lookups of any other id are unaffected |

## Left out

- Rendering, toasts, navigation, timers and charts. The pages' JSX, `toast`
  calls, `navigate`, `setTimeout`/`setInterval` scheduling and recharts data
  (including the fixed weekly-schedule numbers) are presentation. Timer
  callbacks are modelled as the events they apply.
- Floating-point values.
  - The alert temperature text is a parameter.
  - The monitoring temperature reading (`toFixed(1)` of a float) is not in `VitalSign`.
- Random numbers, `Date.now()`, `new Date()` and `uuidv4()` are parameters.
  `Math.round` of the jittered vitals is taken as an integer offset within the variance.
- Date parsing: `new Date(s)` is a function parameter; the year of birth is read
  through a parameter too.
- `HealthRisk.ComputeRisk`: the year of birth is an integer parameter. An
  unparseable date of birth makes the page's age `NaN`, which scores 5 age
  points, fires no age rule and reads "Patient is NaN years old"; that path is
  not modelled.
- `Alerts.Generate`: requires a drawn patient index below the number of
  patients. With no patients the page reads fields of `undefined` and throws;
  that crash is not modelled.
- The e-mail rule of the patient schema is a library validator and is not modelled.
- The mock data contents (`mockPatients`, `mockDoctors`, `mockAppointments`,
  `mockPrescriptions`) are not part of this model; the lists are parameters.
- `console.log` of the patient form.
- `Text.LowerStr`: folds ASCII letters only, not the full Unicode case mapping of `toLowerCase`.
- `Text.UpperStr`: upper-cases ASCII letters only. A uuid holds only ASCII hex
  digits and dashes, so this is exact there.
- Lengths in the schemas count Dafny characters. JavaScript counts UTF-16 code
  units, so text outside the basic multilingual plane counts differently.
- `Doctors.CompletionRate`: computed exactly as rounding half up of the rational
  `100 * completed / total`. The source multiplies a floating-point quotient,
  which can land just below a half (29/200 gives 14.499…) and round down there.
- `Doctors.ServiceHistogram`: treats every service name as its own fresh key, in
  insertion order. The page counts in a plain object, so three cases differ:
  - `Object.entries` lists integer-like keys first in ascending order.
  - A service named `__proto__` is dropped. Reading it gives `Object.prototype`,
    so the value stored back is the string `"[object Object]1"`, and the
    `__proto__` setter ignores values that are not objects. The counts then add
    up to fewer than the appointments.
  - A name such as `constructor` or `toString` first reads an inherited function,
    so its entry holds a string, not a count.
- `Monitoring.TickDevice`: the signal jitter is any integer. The page's draw
  lies in [-3, 3], which the contract does not need.

## Observations

The proofs expose four behaviours of the source. None needs a corrected
definition:

- The simulator can never trigger the monitoring page's critical toast
  (`Monitoring.GeneratedNeverCritical`). Every generated heart rate, systolic
  pressure and saturation stays inside the critical limits, for hypertensive
  patients too.
- A capped factor score and its raw points always band to the same level
  (`HealthRisk.CappedLevelsAgree`), because every cap exceeds its factor's
  high threshold.
- The battery clamp `max(5, …)` would raise a battery reading below 5.
  No device starts below 5, so this never happens (`Monitoring.DevicesAlwaysOk`).
- On the risk-factor rows, the bar and the icon beside it usually disagree in
  colour (`HealthRisk.FactorBarMatchesIcon`). The bar colours the factor's
  score with the overall 70/50/25 cut-offs. The icon colours the factor's own
  level, banded by per-factor thresholds. For example, three medications draw
  a green bar at 25 next to an orange high-level icon. The two agree only when
  the factor adds nothing beyond its base.

=== FILE: alerts.dfy ===
/** The emergency-alert page: a timer synthesises alerts from six scenario
    templates and prepends them to a list capped at 50; the user acknowledges
    one alert or all of them and clears the acknowledged ones. */
module Alerts {
  import opened Registry
  import Seqs
  import opened Ints
  import Text

  datatype Severity = Critical | Warning | Info

  datatype Alert = Alert(
    id: string,
    patientId: string,
    patientName: string,
    severity: Severity,
    message: string,
    vital: string,
    value: string,
    timestamp: nat,
    acknowledged: bool)

  /** The most alerts the page keeps. */
  const Capacity := 50

  /** The number of alerts seeded when the page opens. */
  const SeedSize := 3

  datatype Scenario = Scenario(severity: Severity, vital: string, message: string)

  /** The six alert templates, in the order the random draw indexes them. */
  const Scenarios: seq<Scenario> := [
    Scenario(Critical, "Heart Rate", "Tachycardia detected — heart rate critically elevated"),
    Scenario(Critical, "SpO2", "Hypoxemia alert — oxygen saturation critically low"),
    Scenario(Critical, "Blood Pressure", "Hypertensive crisis — immediate intervention required"),
    Scenario(Warning, "Temperature", "Elevated body temperature detected"),
    Scenario(Warning, "Heart Rate", "Bradycardia warning — heart rate below normal"),
    Scenario(Info, "Blood Pressure", "Mild blood pressure elevation noted")
  ]

  /** How many values each scenario's first and second integer draws take
      (`Math.floor(Math.random() * n)` lies in `[0, n)`); 1 where a scenario
      uses no such draw. */
  const FirstSpan: seq<nat> := [30, 6, 20, 1, 8, 10]
  const SecondSpan: seq<nat> := [1, 1, 15, 1, 1, 5]

  /** The random and clock inputs of one generated alert: the patient index,
      the scenario index, the scenario's integer draws, the temperature text
      (a floating-point value), the base-36 id suffix, and `Date.now()`. */
  datatype Draws = Draws(
    patient: nat,
    scenario: nat,
    first: nat,
    second: nat,
    temperature: string,
    suffix: string,
    now: nat)

  predicate DrawsInRange(d: Draws, patientCount: nat) {
    && d.patient < patientCount
    && d.scenario < |Scenarios|
    && d.first < FirstSpan[d.scenario]
    && d.second < SecondSpan[d.scenario]
  }

  /** `t` is how a template literal prints the natural number `v`: its
      decimal digits, with no leading zero. */
  predicate Shows(t: string, v: int) {
    |t| >= 1 && Text.AllDigits(t) && (|t| > 1 ==> t[0] != '0') && Text.DecimalValue(t) == v
  }

  /** `r` is the number `v` followed by `unit`. */
  predicate Reading(r: string, unit: string, v: int) {
    |r| > |unit| && r[|r| - |unit|..] == unit && Shows(r[..|r| - |unit|], v)
  }

  /** `r` is the pair `v/w` followed by `unit`, as a blood pressure is printed. */
  predicate PairReading(r: string, unit: string, v: int, w: int) {
    && |r| > |unit| && r[|r| - |unit|..] == unit
    && var parts := Text.Split(r[..|r| - |unit|], '/');
       |parts| == 2 && Shows(parts[0], v) && Shows(parts[1], w)
  }

  /** The reading a scenario reports, as text: the scenario's base value plus
      its draws, printed with the scenario's unit. */
  function ValueText(d: Draws): (r: string)
    requires d.scenario < |Scenarios|
    ensures d.scenario == 0 ==> Reading(r, " bpm", 130 + d.first)
    ensures d.scenario == 1 ==> Reading(r, "%", 82 + d.first)
    ensures d.scenario == 2 ==> PairReading(r, " mmHg", 190 + d.first, 100 + d.second)
    ensures d.scenario == 3 ==> |r| >= 2 && r[..|r| - 2] == d.temperature && r[|r| - 2..] == "°C"
    ensures d.scenario == 4 ==> Reading(r, " bpm", 50 + d.first)
    ensures d.scenario == 5 ==> PairReading(r, " mmHg", 135 + d.first, 88 + d.second)
  {
    var n := Text.NatToString;
    match d.scenario
    case 0 => ReadingText(130 + d.first, " bpm"); n(130 + d.first) + " bpm"
    case 1 => ReadingText(82 + d.first, "%"); n(82 + d.first) + "%"
    case 2 => PairText(190 + d.first, 100 + d.second, " mmHg"); n(190 + d.first) + "/" + n(100 + d.second) + " mmHg"
    case 3 => d.temperature + "°C"
    case 4 => ReadingText(50 + d.first, " bpm"); n(50 + d.first) + " bpm"
    case _ => PairText(135 + d.first, 88 + d.second, " mmHg"); n(135 + d.first) + "/" + n(88 + d.second) + " mmHg"
  }

  lemma ReadingText(v: nat, unit: string)
    ensures Reading(Text.NatToString(v) + unit, unit, v)
  {
    var r := Text.NatToString(v) + unit;
    assert r[..|r| - |unit|] == Text.NatToString(v);
    assert r[|r| - |unit|..] == unit;
  }

  lemma PairText(v: nat, w: nat, unit: string)
    ensures PairReading(Text.NatToString(v) + "/" + Text.NatToString(w) + unit, unit, v, w)
  {
    var a := Text.NatToString(v);
    var b := Text.NatToString(w);
    var r := a + "/" + b + unit;
    assert r[..|r| - |unit|] == a + "/" + b;
    assert r[|r| - |unit|..] == unit;
    assert '/' !in a && '/' !in b by {
      assert !Text.IsDigit('/');
    }
    assert Text.Join([a, b], ['/']) == a + "/" + b;
    Text.SplitJoin([a, b], '/');
  }

  /** `generateAlert()`: a new alert for the drawn patient and scenario. */
  function Generate(patients: seq<Patient>, d: Draws): (a: Alert)
    requires DrawsInRange(d, |patients|)
    ensures !a.acknowledged
    ensures a.patientId == patients[d.patient].id && a.patientName == patients[d.patient].name
    ensures a.severity == Scenarios[d.scenario].severity
    ensures a.severity == Critical <==> d.scenario < 3
    ensures |a.id| >= 6 && a.id[..4] == "ALT-"
    ensures a.id == "ALT-" + Text.NatToString(d.now) + "-" + d.suffix
    ensures a.message == Scenarios[d.scenario].message && a.vital == Scenarios[d.scenario].vital
    ensures a.value == ValueText(d)
    ensures a.timestamp == d.now
  {
    var s := Scenarios[d.scenario];
    var p := patients[d.patient];
    Alert("ALT-" + Text.NatToString(d.now) + "-" + d.suffix, p.id, p.name,
          s.severity, s.message, s.vital, ValueText(d), d.now, false)
  }

  /** Alerts generated at different milliseconds have different ids,
      whatever their random suffixes. */
  lemma GeneratedIdsDiffer(patients: seq<Patient>, d1: Draws, d2: Draws)
    requires DrawsInRange(d1, |patients|) && DrawsInRange(d2, |patients|)
    requires d1.now != d2.now
    ensures Generate(patients, d1).id != Generate(patients, d2).id
  {
    AlertIdsDiffer(d1.now, d2.now, d1.suffix, d2.suffix);
  }

  /** Ids stamped with different clock values differ: the digits of the
      clock are followed by `-`, which no digit equals. */
  lemma AlertIdsDiffer(t1: nat, t2: nat, s1: string, s2: string)
    requires t1 != t2
    ensures "ALT-" + Text.NatToString(t1) + "-" + s1 != "ALT-" + Text.NatToString(t2) + "-" + s2
  {
    var n1 := Text.NatToString(t1);
    var n2 := Text.NatToString(t2);
    assert n1 != n2;
    if |n1| <= |n2| {
      StampsDiffer(n1, n2, s1, s2);
    } else {
      StampsDiffer(n2, n1, s2, s1);
    }
  }

  /** Two different digit stamps, the first no longer than the second, give different ids. */
  lemma StampsDiffer(a: string, b: string, s1: string, s2: string)
    requires Text.AllDigits(a) && Text.AllDigits(b) && a != b && |a| <= |b|
    ensures "ALT-" + a + "-" + s1 != "ALT-" + b + "-" + s2
  {
    var i1 := "ALT-" + a + "-" + s1;
    var i2 := "ALT-" + b + "-" + s2;
    if |a| == |b| {
      var k :| 0 <= k < |a| && a[k] != b[k];
      assert i1[4 + k] == a[k];
      assert i2[4 + k] == b[k];
    } else {
      assert i1[4 + |a|] == '-';
      assert i2[4 + |a|] == b[|a|];
      assert Text.IsDigit(b[|a|]);
    }
  }

  /** The three alerts the page starts with. */
  function Seed(patients: seq<Patient>, ds: seq<Draws>): (r: seq<Alert>)
    requires |ds| == SeedSize
    requires forall i :: 0 <= i < |ds| ==> DrawsInRange(ds[i], |patients|)
    ensures |r| == SeedSize
    ensures forall i :: 0 <= i < |r| ==> r[i] == Generate(patients, ds[i]) && !r[i].acknowledged
  {
    seq(SeedSize, i requires 0 <= i < SeedSize => Generate(patients, ds[i]))
  }

  /** One timer tick: the new alert goes in front and the oldest fall off past the cap. */
  function Tick(prev: seq<Alert>, a: Alert): (r: seq<Alert>)
    ensures |r| == Min(|prev| + 1, Capacity)
    ensures r[0] == a
    ensures r[1..] == prev[..|r| - 1]
  {
    ([a] + prev)[..Min(|prev| + 1, Capacity)]
  }

  /** Marks as acknowledged every alert `select` picks and leaves the rest alone. */
  function AcknowledgeWhere(s: seq<Alert>, select: Alert -> bool): (r: seq<Alert>)
    ensures |r| == |s|
    ensures forall i :: 0 <= i < |s| ==> r[i].acknowledged == (s[i].acknowledged || select(s[i]))
    ensures forall i :: 0 <= i < |s| ==> r[i].(acknowledged := s[i].acknowledged) == s[i]
    decreases |s|
  {
    if |s| == 0 then []
    else
      var head := if select(s[0]) then s[0].(acknowledged := true) else s[0];
      [head] + AcknowledgeWhere(s[1..], select)
  }

  /** `acknowledgeAlert(id)`. */
  function Acknowledge(s: seq<Alert>, id: string): (r: seq<Alert>)
    ensures |r| == |s|
    ensures forall i :: 0 <= i < |s| ==> r[i].acknowledged == (s[i].acknowledged || s[i].id == id)
    ensures forall i :: 0 <= i < |s| && s[i].id != id ==> r[i] == s[i]
    ensures forall i :: 0 <= i < |s| ==> r[i].(acknowledged := s[i].acknowledged) == s[i]
  {
    AcknowledgeWhere(s, (a: Alert) => a.id == id)
  }

  /** `acknowledgeAll()`. */
  function AcknowledgeAll(s: seq<Alert>): (r: seq<Alert>)
    ensures |r| == |s|
    ensures forall i :: 0 <= i < |s| ==> r[i].acknowledged
    ensures forall i :: 0 <= i < |s| ==> r[i].(acknowledged := s[i].acknowledged) == s[i]
  {
    AcknowledgeWhere(s, (a: Alert) => true)
  }

  predicate Active(a: Alert) {
    !a.acknowledged
  }

  /** `clearAcknowledged()`: the unacknowledged alerts, in their order. */
  function ClearAcknowledged(s: seq<Alert>): (r: seq<Alert>)
    ensures forall i :: 0 <= i < |r| ==> !r[i].acknowledged && r[i] in s
    ensures forall i :: 0 <= i < |s| && !s[i].acknowledged ==> s[i] in r
  {
    Seqs.Filter(Active, s)
  }

  /** The alerts still awaiting acknowledgement. */
  function ActiveCount(s: seq<Alert>): nat {
    Seqs.Count(Active, s)
  }

  function AcknowledgedCount(s: seq<Alert>): nat {
    Seqs.Count((a: Alert) => a.acknowledged, s)
  }

  function CriticalCount(s: seq<Alert>): nat {
    Seqs.Count((a: Alert) => a.severity == Critical && !a.acknowledged, s)
  }

  /** The three counters on the page: active and acknowledged alerts make up
      the whole list, and critical ones are among the active. */
  lemma CountsPartition(s: seq<Alert>)
    ensures ActiveCount(s) + AcknowledgedCount(s) == |s|
    ensures CriticalCount(s) <= ActiveCount(s)
  {
    Seqs.CountComplement(Active, (a: Alert) => a.acknowledged, s);
    Seqs.CountMonotone((a: Alert) => a.severity == Critical && !a.acknowledged, Active, s);
  }

  /** Clearing keeps the active alerts in order, removes exactly as many
      alerts as the acknowledged counter shows, and clearing again changes nothing. */
  lemma ClearProperties(s: seq<Alert>)
    ensures Seqs.SubsequenceOf(ClearAcknowledged(s), s)
    ensures |ClearAcknowledged(s)| == |s| - AcknowledgedCount(s)
    ensures ClearAcknowledged(ClearAcknowledged(s)) == ClearAcknowledged(s)
  {
    Seqs.FilterIsSubsequence(Active, s);
    Seqs.CountComplement(Active, (a: Alert) => a.acknowledged, s);
    Seqs.FilterIdempotent(Active, s);
  }

  /** After acknowledging all, clearing leaves nothing. */
  lemma AcknowledgeAllThenClear(s: seq<Alert>)
    ensures ActiveCount(AcknowledgeAll(s)) == 0
    ensures ClearAcknowledged(AcknowledgeAll(s)) == []
  {
    var t := AcknowledgeAll(s);
    Seqs.CountComplement(Active, (a: Alert) => a.acknowledged, t);
    Seqs.FilterKeepsAll((a: Alert) => a.acknowledged, t);
  }

  /** Acknowledging `id` removes from the active count exactly the active alerts with that id. */
  lemma {:induction false} AcknowledgeActiveCount(s: seq<Alert>, id: string)
    ensures ActiveCount(Acknowledge(s, id)) == Seqs.Count((a: Alert) => !a.acknowledged && a.id != id, s)
    decreases |s|
  {
    if |s| > 0 {
      AcknowledgeActiveCount(s[1..], id);
      var r := Acknowledge(s, id);
      assert r[1..] == Acknowledge(s[1..], id);
      assert r == [r[0]] + r[1..];
    }
  }

  /** The events that change the list. */
  datatype Event = Generated(alert: Alert) | Acknowledged(id: string) | AcknowledgedAll | Cleared

  function Apply(s: seq<Alert>, e: Event): seq<Alert> {
    match e
    case Generated(a) => Tick(s, a)
    case Acknowledged(id) => Acknowledge(s, id)
    case AcknowledgedAll => AcknowledgeAll(s)
    case Cleared => ClearAcknowledged(s)
  }

  function Run(s: seq<Alert>, es: seq<Event>): seq<Alert>
    decreases |es|
  {
    if |es| == 0 then s else Run(Apply(s, es[0]), es[1..])
  }

  /** No event un-acknowledges an alert: every active alert after an event was
      already an active alert before it, unless it is the one just generated. */
  lemma NoUnacknowledge(s: seq<Alert>, e: Event)
    ensures forall i :: 0 <= i < |Apply(s, e)| && !Apply(s, e)[i].acknowledged ==>
              Apply(s, e)[i] in s || (e.Generated? && Apply(s, e)[i] == e.alert)
  {
    var r := Apply(s, e);
    match e
    case Generated(a) =>
      forall i | 0 <= i < |r| && i > 0 ensures r[i] in s {
        assert r[i] == r[1..][i - 1] == s[i - 1];
      }
    case Acknowledged(id) =>
    case AcknowledgedAll =>
    case Cleared =>
  }

  /** No event lets the list grow past the cap, whatever happens in between. */
  lemma {:induction false} RunBounded(s: seq<Alert>, es: seq<Event>)
    requires |s| <= Capacity
    ensures |Run(s, es)| <= Capacity
    decreases |es|
  {
    if |es| > 0 {
      var t := Apply(s, es[0]);
      if es[0].Cleared? {
        assert |t| <= |s|;
      }
      RunBounded(t, es[1..]);
    }
  }

  /** The page starts with three active alerts, within the cap. */
  lemma SeedWithinCap(patients: seq<Patient>, ds: seq<Draws>)
    requires |ds| == SeedSize
    requires forall i :: 0 <= i < |ds| ==> DrawsInRange(ds[i], |patients|)
    ensures |Seed(patients, ds)| <= Capacity
    ensures ActiveCount(Seed(patients, ds)) == SeedSize
  {
    var s := Seed(patients, ds);
    Seqs.FilterKeepsAll(Active, s);
  }
}

=== FILE: doctors.dfy ===
/** The doctor dashboard: for the selected doctor, the appointments split by
    status, the prescriptions written, the distinct patients seen, a histogram
    of services and the completion rate. */
module Doctors {
  import opened Wrappers
  import opened Registry
  import Seqs

  /** `mockAppointments.filter(a => a.doctorId === doctorId)`. */
  function DoctorAppointments(appts: seq<Appointment>, doctorId: string): (r: seq<Appointment>)
    ensures forall i :: 0 <= i < |r| ==> r[i] in appts && r[i].doctorId == doctorId
    ensures forall i :: 0 <= i < |appts| && appts[i].doctorId == doctorId ==> appts[i] in r
    ensures Seqs.SubsequenceOf(r, appts)
    ensures |r| == Seqs.Count((a: Appointment) => a.doctorId == doctorId, appts)
  {
    Seqs.FilterIsSubsequence((a: Appointment) => a.doctorId == doctorId, appts);
    Seqs.Filter((a: Appointment) => a.doctorId == doctorId, appts)
  }

  /** The appointments with the given status, in order. */
  function WithStatus(appts: seq<Appointment>, status: string): (r: seq<Appointment>)
    ensures forall i :: 0 <= i < |r| ==> r[i] in appts && r[i].status == status
    ensures forall i :: 0 <= i < |appts| && appts[i].status == status ==> appts[i] in r
    ensures Seqs.SubsequenceOf(r, appts)
    ensures |r| == Seqs.Count((a: Appointment) => a.status == status, appts)
  {
    Seqs.FilterIsSubsequence((a: Appointment) => a.status == status, appts);
    Seqs.Filter((a: Appointment) => a.status == status, appts)
  }

  /** `mockPrescriptions.filter(p => p.doctorId === doctorId)`. */
  function DoctorPrescriptions(rxs: seq<Prescription>, doctorId: string): (r: seq<Prescription>)
    ensures forall i :: 0 <= i < |r| ==> r[i] in rxs && r[i].doctorId == doctorId
    ensures forall i :: 0 <= i < |rxs| && rxs[i].doctorId == doctorId ==> rxs[i] in r
    ensures Seqs.SubsequenceOf(r, rxs)
    ensures |r| == Seqs.Count((p: Prescription) => p.doctorId == doctorId, rxs)
  {
    Seqs.FilterIsSubsequence((p: Prescription) => p.doctorId == doctorId, rxs);
    Seqs.Filter((p: Prescription) => p.doctorId == doctorId, rxs)
  }

  /** The dashboard's lists grow record by record: a new appointment or
      prescription is appended to a list exactly when it belongs there, so
      with the empty lists empty this fixes every list and its tile count. */
  lemma FiltersStep(appts: seq<Appointment>, a: Appointment, rxs: seq<Prescription>, rx: Prescription,
                    doctorId: string, status: string)
    ensures DoctorAppointments([], doctorId) == [] && WithStatus([], status) == [] && DoctorPrescriptions([], doctorId) == []
    ensures DoctorAppointments(appts + [a], doctorId)
            == DoctorAppointments(appts, doctorId) + (if a.doctorId == doctorId then [a] else [])
    ensures WithStatus(appts + [a], status) == WithStatus(appts, status) + (if a.status == status then [a] else [])
    ensures DoctorPrescriptions(rxs + [rx], doctorId)
            == DoctorPrescriptions(rxs, doctorId) + (if rx.doctorId == doctorId then [rx] else [])
  {
    Seqs.FilterSnoc((x: Appointment) => x.doctorId == doctorId, appts, a);
    Seqs.FilterSnoc((x: Appointment) => x.status == status, appts, a);
    Seqs.FilterSnoc((x: Prescription) => x.doctorId == doctorId, rxs, rx);
  }

  /** Scheduled and completed appointments are disjoint, so together they are
      at most all of the doctor's appointments. */
  lemma ScheduledCompletedDisjoint(appts: seq<Appointment>)
    ensures |WithStatus(appts, "scheduled")| + |WithStatus(appts, "completed")| <= |appts|
  {
    Seqs.CountDisjoint((a: Appointment) => a.status == "scheduled", (a: Appointment) => a.status == "completed", appts);
  }

  function PatientIdsOf(appts: seq<Appointment>): (r: seq<string>)
    ensures |r| == |appts| && forall i :: 0 <= i < |appts| ==> r[i] == appts[i].patientId
  {
    seq(|appts|, i requires 0 <= i < |appts| => appts[i].patientId)
  }

  /** `[...new Set(appts.map(a => a.patientId))]`. */
  function UniquePatientIds(appts: seq<Appointment>): (r: seq<string>)
    ensures Seqs.NoDuplicates(r)
    ensures forall i :: 0 <= i < |r| ==> exists j :: 0 <= j < |appts| && appts[j].patientId == r[i]
    ensures forall j :: 0 <= j < |appts| ==> appts[j].patientId in r
  {
    var ids := PatientIdsOf(appts);
    var r := Seqs.Dedup(ids);
    assert forall i :: 0 <= i < |r| ==> r[i] in ids;
    r
  }

  /** `mockPatients.filter(p => ids.includes(p.id))`: the registry's patients
      whose id is listed, in registry order. */
  function PatientsWithIds(patients: seq<Patient>, ids: seq<string>): (r: seq<Patient>)
    ensures forall i :: 0 <= i < |r| ==> r[i] in patients && r[i].id in ids
    ensures forall i :: 0 <= i < |patients| && patients[i].id in ids ==> patients[i] in r
    ensures Seqs.SubsequenceOf(r, patients)
  {
    Seqs.FilterIsSubsequence((p: Patient) => p.id in ids, patients);
    Seqs.Filter((p: Patient) => p.id in ids, patients)
  }

  /** One bar of the service histogram. */
  datatype ServiceCount = ServiceCount(name: string, count: nat)

  function Keys(h: seq<ServiceCount>): (r: seq<string>)
    ensures |r| == |h| && forall i :: 0 <= i < |h| ==> r[i] == h[i].name
  {
    seq(|h|, i requires 0 <= i < |h| => h[i].name)
  }

  /** The count recorded for `name` (`serviceMap[name] || 0`). */
  function CountOf(h: seq<ServiceCount>, name: string): nat
    decreases |h|
  {
    if |h| == 0 then 0 else if h[0].name == name then h[0].count else CountOf(h[1..], name)
  }

  /** The sum of all counts. */
  function Total(h: seq<ServiceCount>): nat
    decreases |h|
  {
    if |h| == 0 then 0 else h[0].count + Total(h[1..])
  }

  predicate Positive(h: seq<ServiceCount>) {
    forall i :: 0 <= i < |h| ==> h[i].count >= 1
  }

  /** `serviceMap[name] = (serviceMap[name] || 0) + 1`: a known service's count
      goes up by one, a new service is appended with count 1. */
  function AddService(h: seq<ServiceCount>, name: string): (r: seq<ServiceCount>)
    ensures |r| == |h| || |r| == |h| + 1
    ensures Total(r) == Total(h) + 1
    decreases |h|
  {
    if |h| == 0 then [ServiceCount(name, 1)]
    else if h[0].name == name then [h[0].(count := h[0].count + 1)] + h[1..]
    else [h[0]] + AddService(h[1..], name)
  }

  /** Adding a service appends its name to the keys exactly when it is new. */
  lemma {:induction false} AddServiceKeys(h: seq<ServiceCount>, name: string)
    ensures Keys(AddService(h, name)) == if name in Keys(h) then Keys(h) else Keys(h) + [name]
    decreases |h|
  {
    if |h| == 0 {
      assert Keys([ServiceCount(name, 1)]) == [name];
    } else if h[0].name == name {
      AddServiceFirst(h, name);
    } else {
      AddServiceKeys(h[1..], name);
      AddServiceLater(h, name);
    }
  }

  /** A service equal to the first entry's name bumps that entry and keeps the keys. */
  lemma AddServiceFirst(h: seq<ServiceCount>, name: string)
    requires |h| > 0 && h[0].name == name
    ensures name in Keys(h) && Keys(AddService(h, name)) == Keys(h)
  {
    var r := AddService(h, name);
    assert Keys(h)[0] == name;
    assert forall i :: 0 <= i < |h| ==> r[i].name == h[i].name by {
      assert r == [h[0].(count := h[0].count + 1)] + h[1..];
    }
  }

  /** A service other than the first entry's name is added to the rest. */
  lemma AddServiceLater(h: seq<ServiceCount>, name: string)
    requires |h| > 0 && h[0].name != name
    ensures Keys(h) == [h[0].name] + Keys(h[1..])
    ensures Keys(AddService(h, name)) == [h[0].name] + Keys(AddService(h[1..], name))
    ensures name in Keys(h) <==> name in Keys(h[1..])
  {
    var r := AddService(h, name);
    assert r[0] == h[0] && r[1..] == AddService(h[1..], name);
    KeysCons(h);
    KeysCons(r);
  }

  /** The keys of a non-empty histogram: the first name, then the keys of the rest. */
  lemma KeysCons(h: seq<ServiceCount>)
    requires |h| > 0
    ensures Keys(h) == [h[0].name] + Keys(h[1..])
  {
    assert forall i :: 1 <= i < |h| ==> Keys(h)[i] == Keys(h[1..])[i - 1];
  }

  /** Adding a service raises that service's count by one and no other. */
  lemma {:induction false} AddServiceCount(h: seq<ServiceCount>, name: string, k: string)
    ensures CountOf(AddService(h, name), k) == CountOf(h, k) + (if k == name then 1 else 0)
    decreases |h|
  {
    if |h| > 0 && h[0].name != name {
      AddServiceCount(h[1..], name, k);
      assert AddService(h, name)[1..] == AddService(h[1..], name);
    }
  }

  /** Adding a service keeps every count positive. */
  lemma {:induction false} AddServicePositive(h: seq<ServiceCount>, name: string)
    requires Positive(h)
    ensures Positive(AddService(h, name))
    decreases |h|
  {
    if |h| > 0 && h[0].name != name {
      AddServicePositive(h[1..], name);
      assert AddService(h, name)[1..] == AddService(h[1..], name);
    }
  }

  function Services(appts: seq<Appointment>): (r: seq<string>)
    ensures |r| == |appts| && forall i :: 0 <= i < |appts| ==> r[i] == appts[i].service
  {
    seq(|appts|, i requires 0 <= i < |appts| => appts[i].service)
  }

  /** `serviceMap`, as its entries in insertion order. */
  function ServiceHistogram(appts: seq<Appointment>): (h: seq<ServiceCount>)
    ensures Total(h) == |appts|
    decreases |appts|
  {
    if |appts| == 0 then []
    else AddService(ServiceHistogram(appts[..|appts| - 1]), appts[|appts| - 1].service)
  }

  /** One bar per distinct service, in order of first appearance, every count at least 1. */
  lemma {:induction false} HistogramShape(appts: seq<Appointment>)
    ensures Keys(ServiceHistogram(appts)) == Seqs.Dedup(Services(appts))
    ensures Positive(ServiceHistogram(appts))
    decreases |appts|
  {
    if |appts| > 0 {
      var init := appts[..|appts| - 1];
      HistogramShape(init);
      assert Services(appts)[..|appts| - 1] == Services(init);
      AddServiceKeys(ServiceHistogram(init), appts[|appts| - 1].service);
      AddServicePositive(ServiceHistogram(init), appts[|appts| - 1].service);
    }
  }

  /** Each bar counts exactly the appointments for its service. */
  lemma {:induction false} HistogramCounts(appts: seq<Appointment>, k: string)
    ensures CountOf(ServiceHistogram(appts), k) == Seqs.Count((a: Appointment) => a.service == k, appts)
    decreases |appts|
  {
    if |appts| > 0 {
      var init := appts[..|appts| - 1];
      var last := appts[|appts| - 1];
      HistogramCounts(init, k);
      AddServiceCount(ServiceHistogram(init), last.service, k);
      assert appts == init + [last];
      Seqs.FilterSnoc((a: Appointment) => a.service == k, init, last);
    }
  }

  /** `Math.round(completed / total * 100)`, and 0 without appointments. */
  function CompletionRate(completed: nat, total: nat): (r: int)
    ensures total == 0 ==> r == 0
    ensures total > 0 ==> 200 * completed - total < 2 * r * total <= 200 * completed + total
    ensures completed <= total ==> 0 <= r <= 100
  {
    if total == 0 then 0
    else
      RoundedPercent(completed, total);
      (200 * completed + total) / (2 * total)
  }

  /** Rounding half up of `100 * c / t` lies within half a point of it, and
      within [0, 100] when `c <= t`. */
  lemma RoundedPercent(c: nat, t: nat)
    requires t > 0
    ensures var r := (200 * c + t) / (2 * t);
            && 200 * c - t < 2 * r * t <= 200 * c + t
            && (c <= t ==> 0 <= r <= 100)
  {
    var n := 200 * c + t;
    var d := 2 * t;
    var r := n / d;
    var m := n % d;
    assert n == r * d + m && 0 <= m < d;
    assert r * d == 2 * r * t;
    if r < 0 {
      MulMono(r, -1, d);
    }
    if c <= t && r > 100 {
      MulMono(101, r, d);
      assert false;
    }
  }

  /** Multiplying by a non-negative factor keeps the order. */
  lemma MulMono(a: int, b: int, k: nat)
    requires a <= b
    ensures a * k <= b * k
  {
    var diff := b - a;
    assert b * k == a * k + diff * k;
  }

  /** The dashboard of one doctor. */
  datatype DashboardView = DashboardView(
    doctor: Doctor,
    appointments: seq<Appointment>,
    scheduled: seq<Appointment>,
    completed: seq<Appointment>,
    prescriptions: seq<Prescription>,
    patientIds: seq<string>,
    patients: seq<Patient>,
    services: seq<ServiceCount>,
    completionRate: int)

  /** The page for doctor `selected`; nothing when no doctor has that id. */
  function Dashboard(doctors: seq<Doctor>, appts: seq<Appointment>, patients: seq<Patient>,
                     rxs: seq<Prescription>, selected: string): (v: Option<DashboardView>)
    ensures v.None? <==> forall i :: 0 <= i < |doctors| ==> doctors[i].id != selected
    ensures forall i :: FirstDoctor(doctors, selected, i) ==> v.Some? && v.value.doctor == doctors[i]
    ensures v.Some? ==> v.value.appointments == DoctorAppointments(appts, selected)
    ensures v.Some? ==> v.value.scheduled == WithStatus(v.value.appointments, "scheduled")
    ensures v.Some? ==> v.value.completed == WithStatus(v.value.appointments, "completed")
    ensures v.Some? ==> v.value.prescriptions == DoctorPrescriptions(rxs, selected)
    ensures v.Some? ==> v.value.patientIds == UniquePatientIds(v.value.appointments)
    ensures v.Some? ==> v.value.patients == PatientsWithIds(patients, v.value.patientIds)
    ensures v.Some? ==> v.value.services == ServiceHistogram(v.value.appointments)
    ensures v.Some? ==> v.value.completionRate == CompletionRate(|v.value.completed|, |v.value.appointments|)
    ensures v.Some? ==> 0 <= v.value.completionRate <= 100
    ensures v.Some? ==> |v.value.scheduled| + |v.value.completed| <= |v.value.appointments|
    ensures v.Some? ==> Total(v.value.services) == |v.value.appointments|
  {
    match FindDoctor(doctors, selected)
    case None => None
    case Some(d) =>
      var mine := DoctorAppointments(appts, selected);
      var scheduled := WithStatus(mine, "scheduled");
      var completed := WithStatus(mine, "completed");
      var ids := UniquePatientIds(mine);
      ScheduledCompletedDisjoint(mine);
      Some(DashboardView(d, mine, scheduled, completed, DoctorPrescriptions(rxs, selected), ids,
                         PatientsWithIds(patients, ids), ServiceHistogram(mine),
                         CompletionRate(|completed|, |mine|)))
  }

  /** The patient cards are exactly the registry patients with an appointment
      with the doctor, each listed once if the registry lists it once. */
  lemma DoctorPatientsExact(patients: seq<Patient>, appts: seq<Appointment>, doctorId: string, p: Patient)
    ensures p in PatientsWithIds(patients, UniquePatientIds(DoctorAppointments(appts, doctorId)))
        <==> p in patients && exists a :: a in appts && a.doctorId == doctorId && a.patientId == p.id
  {
    var mine := DoctorAppointments(appts, doctorId);
    var ids := UniquePatientIds(mine);
    if p in patients && exists a :: a in appts && a.doctorId == doctorId && a.patientId == p.id {
      var a :| a in appts && a.doctorId == doctorId && a.patientId == p.id;
      var j :| 0 <= j < |appts| && appts[j] == a;
      assert a in mine;
      var k :| 0 <= k < |mine| && mine[k] == a;
      assert p.id in ids;
      var i :| 0 <= i < |patients| && patients[i] == p;
    }
    if p in PatientsWithIds(patients, ids) {
      assert p.id in ids;
      var i :| 0 <= i < |ids| && ids[i] == p.id;
      var j :| 0 <= j < |mine| && mine[j].patientId == ids[i];
      assert mine[j] in appts;
    }
  }
}

=== FILE: health_risk.dfy ===
/** The health-risk page: a patient's static medical history is scored in
    integer points per factor, each factor capped, the sum clamped to 100 and
    banded into a risk level; rule-based recommendations accompany the score. */
module HealthRisk {
  import opened Wrappers
  import opened Registry
  import Seqs
  import opened Ints
  import Text

  /** Risk bands. Factors use the first three; the overall risk may also be Critical. */
  datatype Level = Low | Moderate | High | Critical

  datatype RiskFactor = RiskFactor(name: string, score: int, level: Level, description: string)

  datatype Prediction = Prediction(
    overallRisk: int,
    riskLevel: Level,
    factors: seq<RiskFactor>,
    recommendations: seq<Advice>)

  const AgeFactor := "Age Factor"
  const ConditionsFactor := "Pre-existing Conditions"
  const AllergyFactor := "Allergy Sensitivity"
  const MedicationFactor := "Medication Interactions"

  /** The recommendation messages the page can show. */
  datatype Advice = NoData | HbA1c | BloodPressure | Cardiovascular | Pharmacist | Wristband | Routine

  /** The text shown for each recommendation. */
  function Message(a: Advice): string {
    match a
    case NoData => "No patient data available."
    case HbA1c => "Schedule quarterly HbA1c monitoring"
    case BloodPressure => "Daily blood pressure monitoring recommended"
    case Cardiovascular => "Annual cardiovascular screening advised"
    case Pharmacist => "Review medication interactions with pharmacist"
    case Wristband => "Update allergy wristband before procedures"
    case Routine => "Continue routine health checkups"
  }

  /** The answer for a patient id the registry does not know. */
  const UnknownPatient := Prediction(0, Low, [], [NoData])

  /** The scoring inputs drawn from one patient: age in years, the condition
      list, the counted allergies (entries other than "None") and the number
      of medications. */
  datatype Profile = Profile(age: int, conditions: seq<string>, allergies: seq<string>, medicationCount: nat)

  /** Points for age: 30 above 65, 20 above 50, 10 above 40, otherwise 5. */
  function AgeScore(age: int): (r: int)
    ensures r == 5 || r == 10 || r == 20 || r == 30
    ensures r == 30 <==> age > 65
    ensures r == 20 <==> 50 < age <= 65
    ensures r == 10 <==> 40 < age <= 50
    ensures r == 5 <==> age <= 40
  {
    if age > 65 then 30 else if age > 50 then 20 else if age > 40 then 10 else 5
  }

  /** A factor's level: High above `high`, Moderate above `moderate`, otherwise Low. */
  function Band(x: int, high: int, moderate: int): (l: Level)
    requires moderate <= high
    ensures l != Critical
    ensures l == High <==> x > high
    ensures l == Low <==> x <= moderate
  {
    if x > high then High else if x > moderate then Moderate else Low
  }

  /** The overall level: Critical above 70, High above 50, Moderate above 25, otherwise Low. */
  function RiskLevelOf(score: int): (l: Level)
    ensures l == Critical <==> score > 70
    ensures l == High <==> 50 < score <= 70
    ensures l == Moderate <==> 25 < score <= 50
    ensures l == Low <==> score <= 25
  {
    if score > 70 then Critical else if score > 50 then High else if score > 25 then Moderate else Low
  }

  /** Raw (uncapped) points per factor. */
  function ConditionPoints(n: nat): nat { n * 15 }
  function AllergyPoints(n: nat): nat { n * 8 }
  function MedicationPoints(n: nat): nat { n * 10 }

  const ConditionCap := 40
  const AllergyCap := 20
  const MedicationCap := 25

  /** The overall score: capped factor points summed and clamped to 100. */
  function Score(age: int, conditions: nat, allergies: nat, medications: nat): (r: int)
    ensures 5 <= r <= 100
  {
    Min(AgeScore(age)
        + Min(ConditionPoints(conditions), ConditionCap)
        + Min(AllergyPoints(allergies), AllergyCap)
        + Min(MedicationPoints(medications), MedicationCap), 100)
  }

  /** The condition entries of a patient, or none when there is no history. */
  function ConditionsOf(p: Patient): seq<string> {
    match p.medicalHistory
    case None => []
    case Some(h) => h.conditions
  }

  /** The allergy entries of a patient, or none when there is no history. */
  function AllergiesOf(p: Patient): seq<string> {
    match p.medicalHistory
    case None => []
    case Some(h) => h.allergies
  }

  /** An allergy entry counts unless it is the literal "None". */
  predicate Counted(a: string) {
    a != "None"
  }

  predicate IsNoneEntry(a: string) {
    a == "None"
  }

  /** `allergies.filter(a => a !== "None")`: the patient's allergy entries in
      their order with exactly the "None" entries dropped. */
  function CountedAllergies(p: Patient): (r: seq<string>)
    ensures Seqs.SubsequenceOf(r, AllergiesOf(p))
    ensures forall i :: 0 <= i < |r| ==> r[i] != "None"
    ensures forall i :: 0 <= i < |AllergiesOf(p)| && AllergiesOf(p)[i] != "None" ==> AllergiesOf(p)[i] in r
    ensures |r| == |AllergiesOf(p)| - Seqs.Count(IsNoneEntry, AllergiesOf(p))
  {
    var all := AllergiesOf(p);
    Seqs.FilterIsSubsequence(Counted, all);
    Seqs.CountComplement(Counted, IsNoneEntry, all);
    Seqs.Filter(Counted, all)
  }

  function MedicationCount(p: Patient): nat {
    match p.medicalHistory
    case None => 0
    case Some(h) => |h.medications|
  }

  function ProfileOf(p: Patient, age: int): Profile {
    Profile(age, ConditionsOf(p), CountedAllergies(p), MedicationCount(p))
  }

  /** The advice that fires for a profile. */
  predicate AnyRuleFires(pr: Profile) {
    || Mentions(pr.conditions, "diabetes")
    || Mentions(pr.conditions, "hypertension")
    || pr.age > 50
    || pr.medicationCount > 2
    || |pr.allergies| > 0
  }

  /** The position of each advice in the page's rule order. */
  function Rank(a: Advice): nat {
    match a
    case HbA1c => 0
    case BloodPressure => 1
    case Cardiovascular => 2
    case Pharmacist => 3
    case Wristband => 4
    case Routine => 5
    case NoData => 6
  }

  /** Whether the rule behind an advice fires for a profile. */
  predicate Fires(pr: Profile, a: Advice) {
    match a
    case HbA1c => Mentions(pr.conditions, "diabetes")
    case BloodPressure => Mentions(pr.conditions, "hypertension")
    case Cardiovascular => pr.age > 50
    case Pharmacist => pr.medicationCount > 2
    case Wristband => |pr.allergies| > 0
    case Routine => false
    case NoData => false
  }

  /** The rule-driven advice in the order the page tests the rules. */
  const RuleOrder: seq<Advice> := [HbA1c, BloodPressure, Cardiovascular, Pharmacist, Wristband]

  /** The advice of the rules that fire, in rule order. */
  function Fired(pr: Profile): (r: seq<Advice>)
    ensures |r| <= |RuleOrder|
    ensures forall i :: 0 <= i < |r| ==> r[i] in RuleOrder && Fires(pr, r[i])
    ensures forall i :: 0 <= i < |RuleOrder| && Fires(pr, RuleOrder[i]) ==> RuleOrder[i] in r
    ensures forall i, j :: 0 <= i < j < |r| ==> Rank(r[i]) < Rank(r[j])
  {
    var fires := (a: Advice) => Fires(pr, a);
    Seqs.FilterKeepsOrder(fires, (a: Advice) => Rank(a) as int, RuleOrder);
    Seqs.Filter(fires, RuleOrder)
  }

  /** The recommendation list: each rule's advice exactly when its rule
      fires, once and in the page's rule order, and routine checkups alone
      exactly when no rule fires. */
  function Recommendations(pr: Profile): (r: seq<Advice>)
    ensures 1 <= |r| <= 5
    ensures forall a :: a in RuleOrder ==> (a in r <==> Fires(pr, a))
    ensures Routine in r <==> !AnyRuleFires(pr)
    ensures Routine in r ==> r == [Routine]
    ensures NoData !in r
    ensures forall i, j :: 0 <= i < j < |r| ==> Rank(r[i]) < Rank(r[j])
  {
    var fired := Fired(pr);
    FiredExactly(pr);
    if |fired| == 0 then [Routine] else fired
  }

  /** A rule's advice is among the fired ones exactly when the rule fires;
      nothing fires exactly when no rule does. */
  lemma FiredExactly(pr: Profile)
    ensures forall a :: a in RuleOrder ==> (a in Fired(pr) <==> Fires(pr, a))
    ensures |Fired(pr)| == 0 <==> !AnyRuleFires(pr)
    ensures Routine !in Fired(pr) && NoData !in Fired(pr)
  {
    var fired := Fired(pr);
    assert forall a :: a in fired ==> a in RuleOrder && Fires(pr, a);
    assert forall i :: 0 <= i < |RuleOrder| ==> (RuleOrder[i] in fired <==> Fires(pr, RuleOrder[i]));
  }

  /** The text of a list factor: the entries joined by ", ", or "None". */
  function ListDescription(entries: seq<string>): string {
    if |entries| > 0 then Text.Join(entries, ", ") else "None"
  }

  /** The four factor rows. Each displayed score is capped; each level is
      banded from the uncapped points. */
  function Factors(pr: Profile): (f: seq<RiskFactor>)
    ensures |f| == 4
    ensures f[0] == RiskFactor(AgeFactor, AgeScore(pr.age), Band(AgeScore(pr.age), 20, 10),
                               "Patient is " + Text.IntToString(pr.age) + " years old")
    ensures f[1] == RiskFactor(ConditionsFactor, Min(ConditionPoints(|pr.conditions|), ConditionCap),
                               Band(ConditionPoints(|pr.conditions|), 25, 10), ListDescription(pr.conditions))
    ensures f[2] == RiskFactor(AllergyFactor, Min(AllergyPoints(|pr.allergies|), AllergyCap),
                               Band(AllergyPoints(|pr.allergies|), 15, 5), ListDescription(pr.allergies))
    ensures f[3].name == MedicationFactor && f[3].score == Min(MedicationPoints(pr.medicationCount), MedicationCap)
    ensures f[3].level == Band(MedicationPoints(pr.medicationCount), 20, 8)
    ensures f[3].description == Text.NatToString(pr.medicationCount) + " active medication(s)"
  {
    var age := AgeScore(pr.age);
    var cond := ConditionPoints(|pr.conditions|);
    var allergy := AllergyPoints(|pr.allergies|);
    var meds := MedicationPoints(pr.medicationCount);
    [ RiskFactor(AgeFactor, age, Band(age, 20, 10), "Patient is " + Text.IntToString(pr.age) + " years old"),
      RiskFactor(ConditionsFactor, Min(cond, ConditionCap), Band(cond, 25, 10), ListDescription(pr.conditions)),
      RiskFactor(AllergyFactor, Min(allergy, AllergyCap), Band(allergy, 15, 5), ListDescription(pr.allergies)),
      RiskFactor(MedicationFactor, Min(meds, MedicationCap), Band(meds, 20, 8),
                 Text.NatToString(pr.medicationCount) + " active medication(s)") ]
  }

  /** The prediction for a known patient's profile: the four factor rows
      (displayed score capped, level banded from the raw points), the overall
      score as the clamped sum of the displayed scores, and the advice. */
  function Predict(pr: Profile): (r: Prediction)
    ensures |r.factors| == 4
    ensures r.factors[0].name == AgeFactor && r.factors[1].name == ConditionsFactor
    ensures r.factors[2].name == AllergyFactor && r.factors[3].name == MedicationFactor
    ensures r.factors[0].score == AgeScore(pr.age) && r.factors[0].level == Band(AgeScore(pr.age), 20, 10)
         && r.factors[0].description == "Patient is " + Text.IntToString(pr.age) + " years old"
    ensures r.factors[1].score == Min(ConditionPoints(|pr.conditions|), ConditionCap)
         && r.factors[1].level == Band(ConditionPoints(|pr.conditions|), 25, 10)
         && r.factors[1].description == ListDescription(pr.conditions)
    ensures r.factors[2].score == Min(AllergyPoints(|pr.allergies|), AllergyCap)
         && r.factors[2].level == Band(AllergyPoints(|pr.allergies|), 15, 5)
         && r.factors[2].description == ListDescription(pr.allergies)
    ensures r.factors[3].score == Min(MedicationPoints(pr.medicationCount), MedicationCap)
         && r.factors[3].level == Band(MedicationPoints(pr.medicationCount), 20, 8)
         && r.factors[3].description == Text.NatToString(pr.medicationCount) + " active medication(s)"
    ensures r.overallRisk == Score(pr.age, |pr.conditions|, |pr.allergies|, pr.medicationCount)
    ensures r.riskLevel == RiskLevelOf(r.overallRisk)
    ensures r.recommendations == Recommendations(pr)
  {
    var score := Score(pr.age, |pr.conditions|, |pr.allergies|, pr.medicationCount);
    Prediction(score, RiskLevelOf(score), Factors(pr), Recommendations(pr))
  }

  /** What the page shows adds up: the overall risk is the clamped sum of the
      four displayed factor scores, each within its cap and never critical. */
  lemma PredictionAddsUp(pr: Profile)
    ensures var r := Predict(pr);
            && 0 <= r.factors[1].score <= ConditionCap
            && 0 <= r.factors[2].score <= AllergyCap
            && 0 <= r.factors[3].score <= MedicationCap
            && (forall i :: 0 <= i < 4 ==> r.factors[i].level != Critical)
            && r.overallRisk == Min(r.factors[0].score + r.factors[1].score + r.factors[2].score + r.factors[3].score, 100)
            && 5 <= r.overallRisk <= 100
  {
    FactorsAddUp(pr);
    FactorsBounded(pr);
    assert Predict(pr).factors == Factors(pr);
  }

  lemma FactorsAddUp(pr: Profile)
    ensures var f := Factors(pr);
            Score(pr.age, |pr.conditions|, |pr.allergies|, pr.medicationCount)
            == Min(f[0].score + f[1].score + f[2].score + f[3].score, 100)
  {
  }

  lemma FactorsBounded(pr: Profile)
    ensures var f := Factors(pr);
            && 0 <= f[1].score <= ConditionCap && 0 <= f[2].score <= AllergyCap && 0 <= f[3].score <= MedicationCap
            && (forall i :: 0 <= i < 4 ==> f[i].level != Critical)
  {
    var f := Factors(pr);
    assert f[0].level != Critical && f[1].level != Critical;
    assert f[2].level != Critical && f[3].level != Critical;
  }

  /** `computeRisk(patientId)`: the prediction for the first patient with that
      id, aged `currentYear` minus the year of birth read from its date of
      birth; the "No patient data available." answer when there is none. */
  function ComputeRisk(patients: seq<Patient>, patientId: string, currentYear: int,
                       birthYear: string -> int): (r: Prediction)
    ensures (forall i :: 0 <= i < |patients| ==> patients[i].id != patientId) ==> r == UnknownPatient
    ensures forall i :: FirstPatient(patients, patientId, i) ==>
              r == Predict(ProfileOf(patients[i], currentYear - birthYear(patients[i].dob)))
    ensures (exists i :: 0 <= i < |patients| && patients[i].id == patientId) ==>
              |r.factors| == 4 && 5 <= r.overallRisk <= 100 && |r.recommendations| >= 1
  {
    match FindPatient(patients, patientId)
    case None => UnknownPatient
    case Some(p) =>
      var pr := ProfileOf(p, currentYear - birthYear(p.dob));
      PredictionShape(pr);
      Predict(pr)
  }

  /** Every prediction has the four factors, a score of at least 5 and some advice. */
  lemma PredictionShape(pr: Profile)
    ensures var r := Predict(pr);
            |r.factors| == 4 && 5 <= r.overallRisk <= 100 && |r.recommendations| >= 1
  {
    var r := Predict(pr);
    assert 5 <= r.overallRisk <= 100;
    assert |r.recommendations| >= 1;
  }

  /** Allergy entries reading "None" score nothing and raise no wristband advice. */
  lemma NoneAllergiesIgnored(p: Patient, age: int)
    requires p.medicalHistory.Some?
    requires forall i :: 0 <= i < |p.medicalHistory.value.allergies| ==> p.medicalHistory.value.allergies[i] == "None"
    ensures CountedAllergies(p) == []
    ensures Predict(ProfileOf(p, age)).factors[2].score == 0
    ensures Wristband !in Predict(ProfileOf(p, age)).recommendations
  {
    Seqs.FilterDropsAll(Counted, p.medicalHistory.value.allergies);
    var pr := ProfileOf(p, age);
    assert pr.allergies == [];
    assert Wristband in RuleOrder && !Fires(pr, Wristband);
  }

  /** A factor's level read off its capped score equals the level banded from
      its raw points: every cap lies above its factor's High threshold. */
  lemma CappedLevelsAgree(n: nat)
    ensures Band(Min(ConditionPoints(n), ConditionCap), 25, 10) == Band(ConditionPoints(n), 25, 10)
    ensures Band(Min(AllergyPoints(n), AllergyCap), 15, 5) == Band(AllergyPoints(n), 15, 5)
    ensures Band(Min(MedicationPoints(n), MedicationCap), 20, 8) == Band(MedicationPoints(n), 20, 8)
  {
  }

  /** More of any risk factor never lowers the overall score. */
  lemma ScoreMonotone(age: int, age': int, c: nat, c': nat, a: nat, a': nat, m: nat, m': nat)
    requires age <= age' && c <= c' && a <= a' && m <= m'
    ensures Score(age, c, a, m) <= Score(age', c', a', m')
  {
  }

  /** The overall level never drops as the score rises. */
  lemma RiskLevelMonotone(s: int, s': int)
    requires s <= s'
    ensures RiskLevelOf(s) == Critical ==> RiskLevelOf(s') == Critical
    ensures RiskLevelOf(s) == High ==> RiskLevelOf(s') in {High, Critical}
    ensures RiskLevelOf(s) == Moderate ==> RiskLevelOf(s') != Low
  {
  }

  /** The clamp to 100 is reached: the capped factors alone can sum to 115. */
  lemma ClampReached()
    ensures Score(66, 3, 3, 3) == 100
    ensures AgeScore(66) + ConditionCap + AllergyCap + MedicationCap == 115
  {
  }

  /** The worked example: aged 55 with two conditions, one allergy and three
      medications scores 20 + 30 + 8 + 25 = 83, which is critical. */
  lemma WorkedExample()
    ensures Score(55, 2, 1, 3) == 83
    ensures RiskLevelOf(83) == Critical
  {
  }

  /** The progress-bar colours of `progressColor`. */
  datatype Colour = Red | Orange | Amber | Green

  /** `progressColor(score)`: red above 70, orange above 50, amber above 25, otherwise green. */
  function ProgressColour(score: int): (c: Colour)
    ensures c == Red <==> score > 70
    ensures c == Orange <==> 50 < score <= 70
    ensures c == Amber <==> 25 < score <= 50
    ensures c == Green <==> score <= 25
  {
    if score > 70 then Red else if score > 50 then Orange else if score > 25 then Amber else Green
  }

  /** The colour each level is printed in (the `riskColors` table). */
  function LevelColour(l: Level): (c: Colour)
    ensures c == Red <==> l == Critical
    ensures c == Orange <==> l == High
    ensures c == Amber <==> l == Moderate
    ensures c == Green <==> l == Low
  {
    match l
    case Critical => Red
    case High => Orange
    case Moderate => Amber
    case Low => Green
  }

  /** Distinct recommendations have distinct texts, so the list of advice and
      the list of messages determine each other. */
  lemma MessagesDistinct(a: Advice, b: Advice)
    requires a != b
    ensures Message(a) != Message(b)
  {
  }

  /** `progressColor`'s cut-offs are those of the overall risk level: a bar
      for a score has the colour of the overall level that score would get. */
  lemma ProgressColourMatchesLevel(score: int)
    ensures ProgressColour(score) == LevelColour(RiskLevelOf(score))
  {
  }

  /** On the risk-factor rows the bar takes `progressColor` of the factor's
      score while the icon beside it takes the colour of the factor's own
      level, banded by per-factor thresholds. The two agree on a row exactly
      when that factor contributes nothing beyond its base: age 50 or under,
      and no conditions, counted allergies or medications. */
  lemma {:induction false} FactorBarMatchesIcon(pr: Profile)
    ensures var f := Predict(pr).factors;
            && (ProgressColour(f[0].score) == LevelColour(f[0].level) <==> pr.age <= 50)
            && (ProgressColour(f[1].score) == LevelColour(f[1].level) <==> |pr.conditions| == 0)
            && (ProgressColour(f[2].score) == LevelColour(f[2].level) <==> |pr.allergies| == 0)
            && (ProgressColour(f[3].score) == LevelColour(f[3].level) <==> pr.medicationCount == 0)
  {
  }
}

=== FILE: ints.dfy ===
/** Integer helpers shared by the pages (`Math.min`, `Math.max`). */
module Ints {
  function Min(a: int, b: int): (r: int)
    ensures r <= a && r <= b && (r == a || r == b)
  {
    if a <= b then a else b
  }

  function Max(a: int, b: int): (r: int)
    ensures r >= a && r >= b && (r == a || r == b)
  {
    if a >= b then a else b
  }
}

=== FILE: monitoring.dfy ===
/** The real-time monitoring page: synthetic vital-sign readings jittered
    around a baseline, a three-way status classifier, a 30-sample sliding
    window, and a panel of devices whose battery drains and signal wanders on
    every tick and which the user can disconnect or pair. */
module Monitoring {
  import opened Wrappers
  import opened Registry
  import Seqs
  import opened Ints
  import Text

  /** One reading. The floating-point temperature is not modelled. */
  datatype VitalSign = VitalSign(
    timestamp: string,
    heartRate: int,
    systolic: int,
    diastolic: int,
    spo2: int,
    respiratoryRate: int)

  datatype VitalStatus = Normal | Warning | Critical

  /** A reading outside the critical limits. */
  predicate CriticalReading(hr: int, sys: int, spo2: int) {
    hr > 120 || hr < 50 || sys > 180 || sys < 80 || spo2 < 90
  }

  /** A reading inside every normal range. */
  predicate NormalReading(hr: int, sys: int, spo2: int) {
    60 <= hr <= 100 && 90 <= sys <= 140 && spo2 >= 95
  }

  /** `getStatus(hr, sys, spo2)`; the diastolic pressure plays no part. */
  function GetStatus(hr: int, sys: int, spo2: int): (r: VitalStatus)
    ensures r == Critical <==> CriticalReading(hr, sys, spo2)
    ensures r == Normal <==> NormalReading(hr, sys, spo2)
    ensures r == Warning <==> !CriticalReading(hr, sys, spo2) && !NormalReading(hr, sys, spo2)
  {
    if hr > 120 || hr < 50 || sys > 180 || sys < 80 || spo2 < 90 then Critical
    else if hr > 100 || hr < 60 || sys > 140 || sys < 90 || spo2 < 95 then Warning
    else Normal
  }

  function StatusOf(v: VitalSign): VitalStatus {
    GetStatus(v.heartRate, v.systolic, v.spo2)
  }

  /** The random part of one reading: for each vital, the integer offset from
      its baseline that `Math.round(base + (Math.random() - 0.5) * variance * 2)`
      produced, which lies in `[-variance, variance]`. */
  datatype ReadingDraw = ReadingDraw(
    timestamp: string,
    heartRate: int,
    systolic: int,
    diastolic: int,
    spo2: int,
    respiratoryRate: int)

  predicate Within(offset: int, variance: nat) {
    -(variance as int) <= offset <= variance
  }

  predicate DrawInRange(d: ReadingDraw) {
    && Within(d.heartRate, 15)
    && Within(d.systolic, 20)
    && Within(d.diastolic, 10)
    && Within(d.spo2, 3)
    && Within(d.respiratoryRate, 4)
  }

  /** `generateReading()`: baselines 82/145/92 for a hypertensive patient and
      75/120/78 otherwise, SpO2 97 and respiratory rate 16 for everyone. */
  function GenerateReading(hypertensive: bool, d: ReadingDraw): (v: VitalSign)
    requires DrawInRange(d)
    ensures hypertensive ==> 67 <= v.heartRate <= 97 && 125 <= v.systolic <= 165
    ensures !hypertensive ==> 60 <= v.heartRate <= 90 && 100 <= v.systolic <= 140
    ensures hypertensive ==> 82 <= v.diastolic <= 102
    ensures !hypertensive ==> 68 <= v.diastolic <= 88
    ensures 94 <= v.spo2 <= 100 && 12 <= v.respiratoryRate <= 20
    ensures v.timestamp == d.timestamp
  {
    VitalSign(d.timestamp,
              (if hypertensive then 82 else 75) + d.heartRate,
              (if hypertensive then 145 else 120) + d.systolic,
              (if hypertensive then 92 else 78) + d.diastolic,
              97 + d.spo2,
              16 + d.respiratoryRate)
  }

  /** The simulator never produces a critical reading, for any patient: the
      critical branch of the tick (the toast) cannot fire. */
  lemma GeneratedNeverCritical(hypertensive: bool, d: ReadingDraw)
    requires DrawInRange(d)
    ensures StatusOf(GenerateReading(hypertensive, d)) != Critical
  {
  }

  /** Whether the selected patient (the first with the id) has a condition
      mentioning hypertension, ASCII case ignored; false for an unknown patient
      or one without history. */
  function HasHypertension(patients: seq<Patient>, selected: string): (r: bool)
    ensures (forall i :: 0 <= i < |patients| ==> patients[i].id != selected) ==> !r
    ensures forall i :: FirstPatient(patients, selected, i) ==>
              (r <==> patients[i].medicalHistory.Some? && Mentions(patients[i].medicalHistory.value.conditions, "hypertension"))
  {
    match FindPatient(patients, selected)
    case None => false
    case Some(p) =>
      match p.medicalHistory
      case None => false
      case Some(h) => Mentions(h.conditions, "hypertension")
  }

  const WindowSize := 30
  const InitialSamples := 20

  /** `[...prev.slice(-29), reading]`: the newest reading after at most the 29 latest previous ones. */
  function Push(prev: seq<VitalSign>, reading: VitalSign): (w: seq<VitalSign>)
    ensures |w| == Min(|prev|, WindowSize - 1) + 1
    ensures w[|w| - 1] == reading
    ensures w[..|w| - 1] == prev[|prev| - (|w| - 1)..]
  {
    prev[|prev| - Min(|prev|, WindowSize - 1)..] + [reading]
  }

  /** The chart window and the reading on the cards. */
  datatype MonitorState = MonitorState(window: seq<VitalSign>, current: VitalSign)

  /** The window is non-empty, within its size, and ends with the current reading. */
  predicate Consistent(st: MonitorState) {
    1 <= |st.window| <= WindowSize && st.current == st.window[|st.window| - 1]
  }

  /** Selecting a patient: twenty fresh readings, the last of them current. */
  function Reset(hypertensive: bool, ds: seq<ReadingDraw>): (st: MonitorState)
    requires |ds| == InitialSamples
    requires forall i :: 0 <= i < |ds| ==> DrawInRange(ds[i])
    ensures |st.window| == InitialSamples
    ensures Consistent(st)
    ensures forall i :: 0 <= i < |ds| ==> st.window[i] == GenerateReading(hypertensive, ds[i])
  {
    var w := seq(|ds|, i requires 0 <= i < |ds| => GenerateReading(hypertensive, ds[i]));
    MonitorState(w, w[|w| - 1])
  }

  /** One two-second tick of the vitals feed. */
  function TickVitals(st: MonitorState, hypertensive: bool, d: ReadingDraw): (st': MonitorState)
    requires DrawInRange(d)
    ensures Consistent(st')
    ensures st'.current == GenerateReading(hypertensive, d)
    ensures st'.window == Push(st.window, st'.current)
  {
    var v := GenerateReading(hypertensive, d);
    MonitorState(Push(st.window, v), v)
  }

  function RunVitals(st: MonitorState, hypertensive: bool, ds: seq<ReadingDraw>): MonitorState
    requires forall i :: 0 <= i < |ds| ==> DrawInRange(ds[i])
    decreases |ds|
  {
    if |ds| == 0 then st else RunVitals(TickVitals(st, hypertensive, ds[0]), hypertensive, ds[1..])
  }

  /** After `k` ticks from a window of `n` readings the window holds `min(n + k, 30)`
      readings and stays consistent. */
  lemma {:induction false} RunVitalsWindow(st: MonitorState, hypertensive: bool, ds: seq<ReadingDraw>)
    requires Consistent(st)
    requires forall i :: 0 <= i < |ds| ==> DrawInRange(ds[i])
    ensures Consistent(RunVitals(st, hypertensive, ds))
    ensures |RunVitals(st, hypertensive, ds).window| == Min(|st.window| + |ds|, WindowSize)
    decreases |ds|
  {
    if |ds| > 0 {
      RunVitalsWindow(TickVitals(st, hypertensive, ds[0]), hypertensive, ds[1..]);
    }
  }

  datatype DeviceKind = HeartMonitor | BpCuff | PulseOximeter | Thermometer | Wearable

  datatype DeviceStatus = Connected | Disconnected | Pairing

  datatype Device = Device(
    id: string,
    name: string,
    kind: DeviceKind,
    status: DeviceStatus,
    battery: int,
    signal: int,
    lastSync: string,
    firmware: string)

  /** The devices the page starts with. */
  const InitialDevices: seq<Device> := [
    Device("dev-1", "CardioSense Pro", HeartMonitor, Connected, 87, 95, "Just now", "v3.2.1"),
    Device("dev-2", "PressureGuard X1", BpCuff, Connected, 62, 88, "2s ago", "v2.8.0"),
    Device("dev-3", "OxiPulse Mini", PulseOximeter, Connected, 45, 72, "5s ago", "v1.5.3"),
    Device("dev-4", "ThermoSync IR", Thermometer, Disconnected, 12, 0, "5 min ago", "v1.2.0"),
    Device("dev-5", "HealthBand Ultra", Wearable, Connected, 93, 98, "Just now", "v4.0.2")
  ]

  /** The random part of one device's tick: whether a battery point drains
      (`Math.random() > 0.8`) and the signal jitter `Math.round((Math.random() - 0.5) * 6)`. */
  datatype DeviceDraw = DeviceDraw(drain: bool, jitter: int)

  /** `Math.min(hi, Math.max(lo, x))`. */
  function Clamp(x: int, lo: int, hi: int): (r: int)
    requires lo <= hi
    ensures lo <= r <= hi
    ensures lo <= x <= hi ==> r == x
    ensures x < lo ==> r == lo
    ensures x > hi ==> r == hi
  {
    if x < lo then lo else if x > hi then hi else x
  }

  /** One device's tick. */
  function TickDevice(d: Device, draw: DeviceDraw): (r: Device)
    ensures r.battery == Max(5, d.battery - (if draw.drain then 1 else 0))
    ensures d.status == Connected ==> r.signal == Clamp(d.signal + draw.jitter, 60, 100)
    ensures r.battery >= 5
    ensures d.battery >= 5 ==> d.battery - 1 <= r.battery <= d.battery
    ensures !draw.drain && d.battery >= 5 ==> r.battery == d.battery
    ensures d.status == Connected ==> 60 <= r.signal <= 100 && r.lastSync == "Just now"
    ensures d.status != Connected ==> r.signal == 0 && r.lastSync == d.lastSync
    ensures r.(battery := d.battery, signal := d.signal, lastSync := d.lastSync) == d
  {
    var drained := d.battery - (if draw.drain then 1 else 0);
    d.(battery := if drained < 5 then 5 else drained,
       signal := if d.status == Connected then Clamp(d.signal + draw.jitter, 60, 100) else 0,
       lastSync := if d.status == Connected then "Just now" else d.lastSync)
  }

  /** The device panel's tick: every device ticks with its own draw. */
  function TickDevices(devs: seq<Device>, draws: seq<DeviceDraw>): (r: seq<Device>)
    requires |draws| == |devs|
    ensures |r| == |devs|
    ensures forall i :: 0 <= i < |devs| ==> r[i] == TickDevice(devs[i], draws[i])
  {
    seq(|devs|, i requires 0 <= i < |devs| => TickDevice(devs[i], draws[i]))
  }

  /** Replaces every device with the given id by `f` of it; the others stay. */
  function UpdateDevice(devs: seq<Device>, id: string, f: Device -> Device): (r: seq<Device>)
    ensures |r| == |devs|
    ensures forall i :: 0 <= i < |devs| && devs[i].id == id ==> r[i] == f(devs[i])
    ensures forall i :: 0 <= i < |devs| && devs[i].id != id ==> r[i] == devs[i]
    decreases |devs|
  {
    if |devs| == 0 then []
    else [if devs[0].id == id then f(devs[0]) else devs[0]] + UpdateDevice(devs[1..], id, f)
  }

  /** A click on a device card: a connected device disconnects and loses its
      signal; any other device starts pairing with its signal kept. */
  function Toggled(d: Device): (r: Device)
    ensures d.status == Connected ==> r.status == Disconnected && r.signal == 0
    ensures d.status != Connected ==> r.status == Pairing && r.signal == d.signal
    ensures r.(status := d.status, signal := d.signal) == d
  {
    if d.status == Connected then d.(status := Disconnected, signal := 0)
    else d.(status := Pairing)
  }

  /** `toggleDevice(id)`. */
  function ToggleDevice(devs: seq<Device>, id: string): (r: seq<Device>)
    ensures |r| == |devs|
    ensures forall i :: 0 <= i < |devs| && devs[i].id == id ==> r[i] == Toggled(devs[i])
    ensures forall i :: 0 <= i < |devs| && devs[i].id != id ==> r[i] == devs[i]
  {
    UpdateDevice(devs, id, Toggled)
  }

  /** The end of pairing: the device is connected at signal 85. */
  function Paired(d: Device): (r: Device)
    ensures r.status == Connected && r.signal == 85
    ensures r.(status := d.status, signal := d.signal) == d
  {
    d.(status := Connected, signal := 85)
  }

  /** The pairing timer's completion for device `id`. */
  function CompletePairing(devs: seq<Device>, id: string): (r: seq<Device>)
    ensures |r| == |devs|
    ensures forall i :: 0 <= i < |devs| && devs[i].id == id ==> r[i] == Paired(devs[i])
    ensures forall i :: 0 <= i < |devs| && devs[i].id != id ==> r[i] == devs[i]
  {
    UpdateDevice(devs, id, Paired)
  }

  /** The battery icon's bands. */
  datatype BatteryBand = Low | Medium | Full

  /** The `BatteryIcon` component: full above 60, medium above 25, otherwise low. */
  function BatteryIcon(level: int): (b: BatteryBand)
    ensures b == Full <==> level > 60
    ensures b == Medium <==> 25 < level <= 60
    ensures b == Low <==> level <= 25
  {
    if level > 60 then Full else if level > 25 then Medium else Low
  }

  function BandRank(b: BatteryBand): nat {
    match b
    case Low => 0
    case Medium => 1
    case Full => 2
  }

  /** A tick never moves a device to a fuller battery band. */
  lemma TickNeverRaisesBand(d: Device, draw: DeviceDraw)
    ensures BandRank(BatteryIcon(TickDevice(d, draw).battery)) <= BandRank(BatteryIcon(d.battery))
  {
  }

  /** What holds of every device at all times: battery in [5, 100], signal in
      [0, 100], at least 60 while connected and 0 while disconnected. */
  predicate DeviceOk(d: Device) {
    && 5 <= d.battery <= 100
    && 0 <= d.signal <= 100
    && (d.status == Connected ==> d.signal >= 60)
    && (d.status == Disconnected ==> d.signal == 0)
  }

  predicate DevicesOk(devs: seq<Device>) {
    forall i :: 0 <= i < |devs| ==> DeviceOk(devs[i])
  }

  /** The events that change the device panel. */
  datatype DeviceEvent = Ticked(draws: seq<DeviceDraw>) | Clicked(id: string) | PairingDone(id: string)

  /** Applies an event; a tick whose draws do not match the panel leaves it as it is. */
  function ApplyDevice(devs: seq<Device>, e: DeviceEvent): seq<Device> {
    match e
    case Ticked(draws) => if |draws| == |devs| then TickDevices(devs, draws) else devs
    case Clicked(id) => ToggleDevice(devs, id)
    case PairingDone(id) => CompletePairing(devs, id)
  }

  function RunDevices(devs: seq<Device>, es: seq<DeviceEvent>): seq<Device>
    decreases |es|
  {
    if |es| == 0 then devs else RunDevices(ApplyDevice(devs, es[0]), es[1..])
  }

  /** Every event keeps every device within its invariant. */
  lemma ApplyDeviceOk(devs: seq<Device>, e: DeviceEvent)
    requires DevicesOk(devs)
    ensures DevicesOk(ApplyDevice(devs, e))
  {
    var r := ApplyDevice(devs, e);
    forall i | 0 <= i < |r| ensures DeviceOk(r[i]) {
      assert DeviceOk(devs[i]);
    }
  }

  /** From the initial panel, any sequence of ticks, clicks and pairing
      completions keeps every device within its invariant. */
  lemma {:induction false} DevicesAlwaysOk(es: seq<DeviceEvent>)
    ensures DevicesOk(RunDevices(InitialDevices, es))
  {
    RunKeepsOk(InitialDevices, es);
  }

  lemma {:induction false} RunKeepsOk(devs: seq<Device>, es: seq<DeviceEvent>)
    requires DevicesOk(devs)
    ensures DevicesOk(RunDevices(devs, es))
    decreases |es|
  {
    if |es| > 0 {
      ApplyDeviceOk(devs, es[0]);
      RunKeepsOk(ApplyDevice(devs, es[0]), es[1..]);
    }
  }

  predicate IsConnected(d: Device) {
    d.status == Connected
  }

  /** The header's connected-device count: no more than the panel holds, all
      of it exactly when every device is connected, and none exactly when no
      device is. */
  function ConnectedCount(devs: seq<Device>): (n: nat)
    ensures n <= |devs|
    ensures n == |devs| <==> forall i :: 0 <= i < |devs| ==> devs[i].status == Connected
    ensures n == 0 <==> forall i :: 0 <= i < |devs| ==> devs[i].status != Connected
  {
    Seqs.FilterDropsAll(IsConnected, devs);
    Seqs.FilterKeepsAll(IsConnected, devs);
    Seqs.Count(IsConnected, devs)
  }

  /** The count goes up by one for each connected device added, which with
      the empty panel counting 0 determines the count of every panel. */
  lemma ConnectedCountStep(devs: seq<Device>, d: Device)
    ensures ConnectedCount([]) == 0
    ensures ConnectedCount(devs + [d]) == ConnectedCount(devs) + (if d.status == Connected then 1 else 0)
  {
    Seqs.FilterSnoc(IsConnected, devs, d);
  }

  /** The initial panel shows four connected devices (only the thermometer is disconnected). */
  lemma InitialConnectedCount()
    ensures ConnectedCount(InitialDevices) == 4
  {
    assert InitialDevices == InitialDevices[..4] + [InitialDevices[4]];
    assert InitialDevices[..4] == InitialDevices[..3] + [InitialDevices[3]];
    assert InitialDevices[..3] == InitialDevices[..2] + [InitialDevices[2]];
    assert InitialDevices[..2] == InitialDevices[..1] + [InitialDevices[1]];
    assert InitialDevices[..1] == [] + [InitialDevices[0]];
    ConnectedCountStep(InitialDevices[..4], InitialDevices[4]);
    ConnectedCountStep(InitialDevices[..3], InitialDevices[3]);
    ConnectedCountStep(InitialDevices[..2], InitialDevices[2]);
    ConnectedCountStep(InitialDevices[..1], InitialDevices[1]);
    ConnectedCountStep([], InitialDevices[0]);
  }
}

=== FILE: new_patient.dfy ===
/** The patient-registration form: the validation rules of its schema, and the
    patient record its submit handler puts at the front of the patient list. */
module NewPatient {
  import opened Wrappers
  import opened Registry
  import Text

  /** The form values; the optional schema fields are `Option`s. */
  datatype PatientForm = PatientForm(
    name: string,
    gender: string,
    dob: string,
    bloodType: Option<string>,
    address: string,
    phone: string,
    email: string,
    emergencyName: string,
    emergencyRelationship: string,
    emergencyPhone: string,
    allergies: Option<string>,
    conditions: Option<string>,
    provider: Option<string>,
    policyNumber: Option<string>,
    expiryDate: Option<string>)

  /** The genders the schema's enumeration admits. */
  const Genders: set<string> := {"male", "female", "other"}

  /** The patient schema's length and enumeration rules (the e-mail format
      rule is a library validator and is not modelled). */
  predicate ValidForm(f: PatientForm) {
    && |f.name| >= 3
    && f.gender in Genders
    && |f.dob| >= 1
    && |f.address| >= 5
    && |f.phone| >= 10
    && |f.emergencyName| >= 3
    && |f.emergencyRelationship| >= 1
    && |f.emergencyPhone| >= 10
  }

  /** The schema rejects a name shorter than three characters, a gender
      outside the enumeration, and a phone number shorter than ten characters. */
  lemma SchemaRejects(f: PatientForm)
    ensures |f.name| < 3 ==> !ValidForm(f)
    ensures !ValidForm(f.(gender := "unknown"))
    ensures |f.phone| < 10 ==> !ValidForm(f)
  {
    assert "unknown" != "male" && "unknown" != "female" && "unknown" != "other";
  }

  /** A JavaScript string in a truthiness test: present and not empty. */
  predicate Filled(o: Option<string>) {
    o.Some? && o.value != ""
  }

  /** `v ? v.split(",").map(s => s.trim()) : []`: a comma-separated entry as a
      list of trimmed items; nothing entered gives the empty list. */
  function SplitList(o: Option<string>): (r: seq<string>)
    ensures !Filled(o) ==> r == []
    ensures Filled(o) ==> |r| == Text.Occurrences(o.value, ',') + 1
    ensures Filled(o) ==> forall i :: 0 <= i < |r| ==> r[i] == Text.Trim(Text.Split(o.value, ',')[i])
    ensures forall i :: 0 <= i < |r| ==> ',' !in r[i] && Text.Clean(r[i])
  {
    if Filled(o) then
      var parts := Text.Split(o.value, ',');
      var r := seq(|parts|, i requires 0 <= i < |parts| => Text.Trim(parts[i]));
      assert forall i :: 0 <= i < |r| ==> r[i] == Text.Trim(parts[i]) && ',' !in parts[i];
      r
    else []
  }

  /** The items a user would type into a list field: non-empty, without a
      comma, and without spaces at either end. */
  predicate ListItems(items: seq<string>) {
    forall i :: 0 <= i < |items| ==> |items[i]| > 0 && ',' !in items[i] && Text.Clean(items[i])
  }

  /** Each item after the first with a space in front: how `", "` splits on `","`. */
  function Spaced(items: seq<string>): (r: seq<string>)
    ensures |r| == |items|
    ensures forall i :: 0 <= i < |items| ==> r[i] == " " + items[i]
  {
    seq(|items|, i requires 0 <= i < |items| => " " + items[i])
  }

  /** A space before a `", "`-join is the `","`-join of the items with a space in front of each. */
  lemma {:induction false} SpacedJoin(items: seq<string>)
    requires |items| >= 1
    ensures " " + Text.Join(items, ", ") == Text.Join(Spaced(items), [','])
    decreases |items|
  {
    if |items| > 1 {
      SpacedJoin(items[1..]);
      assert Spaced(items)[1..] == Spaced(items[1..]);
    }
  }

  /** The `","`-split pieces of a `", "`-join: the first item, then each later one after a space. */
  function Pieces(items: seq<string>): seq<string>
    requires |items| >= 1
  {
    [items[0]] + Spaced(items[1..])
  }

  /** Joining the pieces on `","` gives back the `", "`-join of the items. */
  lemma JoinPieces(items: seq<string>)
    requires |items| >= 1
    ensures Text.Join(Pieces(items), [',']) == Text.Join(items, ", ")
  {
    if |items| > 1 {
      var pieces := Pieces(items);
      var tail := items[1..];
      SpacedJoin(tail);
      assert pieces[1..] == Spaced(tail);
      JoinStep(pieces, [',']);
      JoinStep(items, ", ");
      CommaSpace(items[0], Text.Join(tail, ", "));
    }
  }

  /** One unfolding of a join of at least two parts. */
  lemma JoinStep(parts: seq<string>, sep: string)
    requires |parts| > 1
    ensures Text.Join(parts, sep) == parts[0] + sep + Text.Join(parts[1..], sep)
  {
  }

  /** A comma followed by a space-led rest is the `", "` separator followed by the rest. */
  lemma CommaSpace(a: string, rest: string)
    ensures a + [','] + (" " + rest) == a + ", " + rest
  {
    assert [','] + " " == ", ";
  }

  /** No piece holds a comma. */
  lemma PiecesCommaFree(items: seq<string>)
    requires |items| >= 1 && ListItems(items)
    ensures forall k :: 0 <= k < |Pieces(items)| ==> ',' !in Pieces(items)[k]
  {
    forall k | 0 <= k < |Pieces(items)| ensures ',' !in Pieces(items)[k] {
      if k > 0 {
        assert Pieces(items)[k] == " " + items[k];
      }
    }
  }

  /** Splitting a `", "`-join on commas gives the pieces. */
  lemma SplitPieces(items: seq<string>)
    requires |items| >= 1 && ListItems(items)
    ensures Text.Split(Text.Join(items, ", "), ',') == Pieces(items)
  {
    JoinPieces(items);
    PiecesCommaFree(items);
    Text.SplitJoin(Pieces(items), ',');
  }

  /** Items entered separated by `", "` come back as the same list. */
  lemma ListRoundTrip(items: seq<string>)
    requires |items| >= 1 && ListItems(items)
    ensures SplitList(Some(Text.Join(items, ", "))) == items
  {
    var s := Text.Join(items, ", ");
    SplitPieces(items);
    JoinNotEmpty(items);
    var pieces := Pieces(items);
    var r := SplitList(Some(s));
    forall i | 0 <= i < |items| ensures r[i] == items[i] {
      TrimPiece(items, i);
    }
  }

  /** A join whose first item is not empty is not empty. */
  lemma JoinNotEmpty(items: seq<string>)
    requires |items| >= 1 && |items[0]| > 0
    ensures Text.Join(items, ", ") != ""
  {
    if |items| > 1 {
      assert Text.Join(items, ", ") == items[0] + ", " + Text.Join(items[1..], ", ");
    }
  }

  /** Trimming a piece recovers its item. */
  lemma TrimPiece(items: seq<string>, i: nat)
    requires |items| >= 1 && ListItems(items) && i < |items|
    ensures Text.Trim(Pieces(items)[i]) == items[i]
  {
    Text.TrimClean(items[i], " ");
    if i > 0 {
      assert Pieces(items)[i] == " " + items[i];
    }
  }

  /** `uuidv4().slice(0, 8).toUpperCase()`, from the generated identifier. */
  function ShortId(uuid: string): (id: string)
    ensures |id| == if |uuid| < 8 then |uuid| else 8
    ensures forall i :: 0 <= i < |id| ==> id[i] == Text.Upper(uuid[i])
    ensures forall i :: 0 <= i < |id| ==> !('a' <= id[i] <= 'z')
  {
    Text.UpperStr(if |uuid| < 8 then uuid else uuid[..8])
  }

  /** `new Date().toISOString().split("T")[0]`: the date part of a timestamp. */
  function DatePart(iso: string): (d: string)
    ensures 'T' !in d
    ensures |d| <= |iso| && iso[..|d|] == d
    ensures |d| < |iso| ==> iso[|d|] == 'T'
    ensures 'T' !in iso ==> d == iso
  {
    Text.SplitFirstIsPrefix(iso, 'T');
    Text.Split(iso, 'T')[0]
  }

  /** The record `onSubmit` builds from a validated form. */
  function Build(f: PatientForm, uuid: string, iso: string): (p: Patient)
    requires ValidForm(f)
    ensures p.id == ShortId(uuid)
    ensures p.name == f.name && p.gender == f.gender && p.dob == f.dob
    ensures p.address == f.address && p.phone == f.phone && p.email == f.email
    ensures p.bloodType == if Filled(f.bloodType) then f.bloodType.value else "Unknown"
    ensures p.emergencyContact.name == f.emergencyName
    ensures p.emergencyContact.relationship == f.emergencyRelationship
    ensures p.emergencyContact.phone == f.emergencyPhone
    ensures p.medicalHistory.Some?
    ensures p.medicalHistory.value.allergies == SplitList(f.allergies)
    ensures p.medicalHistory.value.conditions == SplitList(f.conditions)
    ensures p.medicalHistory.value.medications == [] && p.medicalHistory.value.surgeries == []
    ensures p.insuranceDetails.Some? <==> Filled(f.provider)
    ensures p.insuranceDetails.Some? ==>
              && p.insuranceDetails.value.provider == f.provider.value
              && p.insuranceDetails.value.policyNumber == f.policyNumber.GetOr("")
              && p.insuranceDetails.value.expiryDate == f.expiryDate.GetOr("")
    ensures p.status == "active"
    ensures p.registeredDate == DatePart(iso)
    ensures |p.name| >= 3 && |p.phone| >= 10
  {
    Patient(
      ShortId(uuid),
      f.name,
      f.gender,
      f.dob,
      if Filled(f.bloodType) then f.bloodType.value else "Unknown",
      f.address,
      f.phone,
      f.email,
      EmergencyContact(f.emergencyName, f.emergencyRelationship, f.emergencyPhone),
      Some(MedicalHistory(SplitList(f.allergies), SplitList(f.conditions), [], [])),
      if Filled(f.provider) then Some(Insurance(f.provider.value, f.policyNumber.GetOr(""), f.expiryDate.GetOr(""))) else None,
      "active",
      DatePart(iso))
  }

  /** The record built from a valid form meets the schema's rules on the fields it copies. */
  lemma BuildMeetsSchema(f: PatientForm, uuid: string, iso: string)
    requires ValidForm(f)
    ensures var p := Build(f, uuid, iso);
            && |p.name| >= 3 && p.gender in Genders && |p.dob| >= 1
            && |p.address| >= 5 && |p.phone| >= 10
            && |p.emergencyContact.name| >= 3 && |p.emergencyContact.relationship| >= 1
            && |p.emergencyContact.phone| >= 10
  {
  }

  /** `mockPatients.unshift(...)`: the new patient goes first and the others
      follow unchanged, in their order. */
  function Register(patients: seq<Patient>, f: PatientForm, uuid: string, iso: string): (r: seq<Patient>)
    requires ValidForm(f)
    ensures |r| == |patients| + 1
    ensures r[0] == Build(f, uuid, iso)
    ensures r[1..] == patients
  {
    [Build(f, uuid, iso)] + patients
  }

  /** The new patient is what a lookup by its id finds, whatever the list held before. */
  lemma RegisteredIsFound(patients: seq<Patient>, f: PatientForm, uuid: string, iso: string)
    requires ValidForm(f)
    ensures FindPatient(Register(patients, f, uuid, iso), ShortId(uuid)) == Some(Build(f, uuid, iso))
  {
  }

  /** Every patient registered before is still found, unless the new id shadows theirs. */
  lemma OthersStillFound(patients: seq<Patient>, f: PatientForm, uuid: string, iso: string, id: string)
    requires ValidForm(f)
    requires id != ShortId(uuid)
    ensures FindPatient(Register(patients, f, uuid, iso), id) == FindPatient(patients, id)
  {
  }
}

=== FILE: new_prescription.dfy ===
/** The new-prescription form: the validation rules of its schema, and the
    record its submit handler appends to the prescription list. */
module NewPrescription {
  import opened Wrappers
  import opened Registry
  import Text

  datatype MedicationForm = MedicationForm(
    name: string,
    dosage: string,
    frequency: string,
    duration: string,
    instructions: Option<string>)

  datatype PrescriptionForm = PrescriptionForm(
    patientId: string,
    doctorId: string,
    date: string,
    diagnosis: string,
    medications: seq<MedicationForm>,
    instructions: Option<string>,
    followUpDate: Option<string>,
    followUpNotes: Option<string>)

  /** The medication schema: a name of at least 3 characters, and a dosage,
      frequency and duration that are not empty. */
  predicate ValidMedication(m: MedicationForm) {
    |m.name| >= 3 && |m.dosage| >= 1 && |m.frequency| >= 1 && |m.duration| >= 1
  }

  /** The prescription schema: patient, doctor and date chosen, a diagnosis of
      at least 3 characters, and at least one medication, each valid. */
  predicate ValidForm(f: PrescriptionForm) {
    && |f.patientId| >= 1
    && |f.doctorId| >= 1
    && |f.date| >= 1
    && |f.diagnosis| >= 3
    && |f.medications| >= 1
    && forall i :: 0 <= i < |f.medications| ==> ValidMedication(f.medications[i])
  }

  /** The schema rejects a form without medications, a diagnosis shorter than
      three characters, and a form whose `k`-th medication has an empty dosage. */
  lemma SchemaRejects(f: PrescriptionForm, k: nat)
    ensures !ValidForm(f.(medications := []))
    ensures |f.diagnosis| < 3 ==> !ValidForm(f)
    ensures k < |f.medications| ==>
              !ValidForm(f.(medications := f.medications[k := f.medications[k].(dosage := "")]))
  {
    if k < |f.medications| {
      var g := f.(medications := f.medications[k := f.medications[k].(dosage := "")]);
      assert !ValidMedication(g.medications[k]);
    }
  }

  /** `PR` followed by `n + 1` in decimal, left-padded with zeros to 3 digits. */
  function PrescriptionId(n: nat): (id: string)
    ensures |id| >= 5 && id[..2] == "PR"
    ensures Text.AllDigits(id[2..]) && Text.DecimalValue(id[2..]) == n + 1
    ensures n + 1 < 1000 ==> |id| == 5
    ensures n + 1 >= 100 ==> id[2] != '0'
  {
    var digits := Text.NatToString(n + 1);
    var padded := Text.PadStart(digits, 3, '0');
    assert padded == seq(|padded| - |digits|, _ => '0') + digits;
    Text.DecimalValueLeadingZeros(|padded| - |digits|, digits);
    SmallNumberDigits(n + 1);
    var id := "PR" + padded;
    assert id[2..] == padded;
    id
  }

  /** Numbers below 1000 have at most three digits. */
  lemma {:induction false} SmallNumberDigits(n: nat)
    ensures n < 1000 ==> |Text.NatToString(n)| <= 3
    ensures n >= 100 ==> |Text.NatToString(n)| >= 3
  {
    if n >= 100 {
      assert n / 10 >= 10;
      assert |Text.NatToString(n / 10)| >= 2;
    }
    if 10 <= n < 1000 {
      var q := n / 10;
      assert q < 100;
      if q >= 10 {
        assert q / 10 < 10;
      }
    }
  }

  /** The number an id produced by `PrescriptionId` encodes. */
  function IdNumber(id: string): nat
    requires |id| >= 2 && Text.AllDigits(id[2..])
  {
    Text.DecimalValue(id[2..])
  }

  /** The id encodes the prescription count it was made from, so different
      counts give different ids. */
  lemma PrescriptionIdInjective(n: nat, m: nat)
    ensures IdNumber(PrescriptionId(n)) == n + 1
    ensures n != m ==> PrescriptionId(n) != PrescriptionId(m)
  {
  }

  /** `record?.name || "Unknown"`: a missing record or an empty name falls back to "Unknown". */
  function NameOrUnknown(name: Option<string>): (r: string)
    ensures name.Some? && name.value != "" ==> r == name.value
    ensures name.None? || name.value == "" ==> r == "Unknown"
  {
    match name
    case Some(n) => if n != "" then n else "Unknown"
    case None => "Unknown"
  }

  function PatientName(patients: seq<Patient>, id: string): Option<string> {
    match FindPatient(patients, id)
    case Some(p) => Some(p.name)
    case None => None
  }

  function DoctorName(doctors: seq<Doctor>, id: string): Option<string> {
    match FindDoctor(doctors, id)
    case Some(d) => Some(d.name)
    case None => None
  }

  function CopyMedication(m: MedicationForm): Medication {
    Medication(m.name, m.dosage, m.frequency, m.duration, m.instructions)
  }

  /** The medication rows copied one for one, in order. */
  function CopyMedications(ms: seq<MedicationForm>): (r: seq<Medication>)
    ensures |r| == |ms|
    ensures forall i :: 0 <= i < |ms| ==>
              && r[i].name == ms[i].name && r[i].dosage == ms[i].dosage
              && r[i].frequency == ms[i].frequency && r[i].duration == ms[i].duration
              && r[i].instructions == ms[i].instructions
  {
    seq(|ms|, i requires 0 <= i < |ms| => CopyMedication(ms[i]))
  }

  /** A follow-up exists exactly when a follow-up date was entered; its notes default to "". */
  function FollowUpOf(f: PrescriptionForm): (r: Option<FollowUp>)
    ensures r.Some? <==> f.followUpDate.Some? && f.followUpDate.value != ""
    ensures r.Some? ==> r.value.date == f.followUpDate.value
    ensures r.Some? ==> r.value.notes == f.followUpNotes.GetOr("")
  {
    match f.followUpDate
    case Some(d) =>
      if d != "" then Some(FollowUp(d, match f.followUpNotes case Some(n) => n case None => "")) else None
    case None => None
  }

  /** The record `onSubmit` builds from a validated form. */
  function Build(rxs: seq<Prescription>, patients: seq<Patient>, doctors: seq<Doctor>,
                 f: PrescriptionForm, createdAt: string): (rx: Prescription)
    requires ValidForm(f)
    ensures rx.id == PrescriptionId(|rxs|)
    ensures rx.patientId == f.patientId && rx.doctorId == f.doctorId
    ensures rx.patientName == NameOrUnknown(PatientName(patients, f.patientId))
    ensures rx.doctorName == NameOrUnknown(DoctorName(doctors, f.doctorId))
    ensures rx.date == f.date && rx.diagnosis == f.diagnosis && rx.instructions == f.instructions
    ensures |rx.medications| == |f.medications| >= 1
    ensures forall i :: 0 <= i < |f.medications| ==>
              && rx.medications[i].name == f.medications[i].name
              && rx.medications[i].dosage == f.medications[i].dosage
              && rx.medications[i].frequency == f.medications[i].frequency
              && rx.medications[i].duration == f.medications[i].duration
              && rx.medications[i].instructions == f.medications[i].instructions
    ensures rx.followUp == FollowUpOf(f)
    ensures |rx.diagnosis| >= 3
  {
    Prescription(
      PrescriptionId(|rxs|),
      f.patientId,
      NameOrUnknown(PatientName(patients, f.patientId)),
      f.doctorId,
      NameOrUnknown(DoctorName(doctors, f.doctorId)),
      f.date,
      f.diagnosis,
      CopyMedications(f.medications),
      f.instructions,
      FollowUpOf(f),
      createdAt)
  }

  /** Every medication of the record built from a valid form meets the
      medication schema, and the record names a patient, a doctor and a date. */
  lemma BuildMeetsSchema(rxs: seq<Prescription>, patients: seq<Patient>, doctors: seq<Doctor>,
                         f: PrescriptionForm, createdAt: string)
    requires ValidForm(f)
    ensures var rx := Build(rxs, patients, doctors, f, createdAt);
            && |rx.patientId| >= 1 && |rx.doctorId| >= 1 && |rx.date| >= 1
            && forall i :: 0 <= i < |rx.medications| ==>
                 ValidMedication(MedicationForm(rx.medications[i].name, rx.medications[i].dosage,
                                                rx.medications[i].frequency, rx.medications[i].duration,
                                                rx.medications[i].instructions))
  {
    var rx := Build(rxs, patients, doctors, f, createdAt);
    forall i | 0 <= i < |rx.medications|
      ensures ValidMedication(MedicationForm(rx.medications[i].name, rx.medications[i].dosage,
                                             rx.medications[i].frequency, rx.medications[i].duration,
                                             rx.medications[i].instructions))
    {
      assert ValidMedication(f.medications[i]);
    }
  }

  /** `mockPrescriptions.push(...)`: exactly one record is appended and the
      existing ones are untouched. */
  function Submit(rxs: seq<Prescription>, patients: seq<Patient>, doctors: seq<Doctor>,
                  f: PrescriptionForm, createdAt: string): (r: seq<Prescription>)
    requires ValidForm(f)
    ensures |r| == |rxs| + 1
    ensures r[..|rxs|] == rxs
    ensures r[|rxs|] == Build(rxs, patients, doctors, f, createdAt)
    ensures IdNumber(r[|rxs|].id) == |r|
  {
    rxs + [Build(rxs, patients, doctors, f, createdAt)]
  }

  /** Every record's id is the one `PrescriptionId` gives its position: what a
      list built only by `Submit` from an empty one looks like. */
  predicate SequentialIds(rxs: seq<Prescription>) {
    forall i :: 0 <= i < |rxs| ==> rxs[i].id == PrescriptionId(i)
  }

  /** Submitting keeps the ids sequential. */
  lemma SubmitKeepsIdsSequential(rxs: seq<Prescription>, patients: seq<Patient>, doctors: seq<Doctor>,
                                 f: PrescriptionForm, createdAt: string)
    requires ValidForm(f) && SequentialIds(rxs)
    ensures SequentialIds(Submit(rxs, patients, doctors, f, createdAt))
  {
    var x := Build(rxs, patients, doctors, f, createdAt);
    assert x.id == PrescriptionId(|rxs|);
    AppendKeepsSequential(rxs, x);
  }

  lemma AppendKeepsSequential(rxs: seq<Prescription>, x: Prescription)
    requires SequentialIds(rxs) && x.id == PrescriptionId(|rxs|)
    ensures SequentialIds(rxs + [x])
  {
    var r := rxs + [x];
    forall i | 0 <= i < |r| ensures r[i].id == PrescriptionId(i) {
      AppendAt(rxs, x, i);
    }
  }

  lemma AppendAt(rxs: seq<Prescription>, x: Prescription, i: nat)
    requires SequentialIds(rxs) && x.id == PrescriptionId(|rxs|) && i <= |rxs|
    ensures (rxs + [x])[i].id == PrescriptionId(i)
  {
    if i < |rxs| {
      assert (rxs + [x])[i] == rxs[i];
    } else {
      assert (rxs + [x])[i] == x;
    }
  }

  /** Sequential ids never repeat. */
  lemma SequentialIdsDistinct(rxs: seq<Prescription>)
    requires SequentialIds(rxs)
    ensures forall i, j :: 0 <= i < j < |rxs| ==> rxs[i].id != rxs[j].id
  {
    forall i, j | 0 <= i < j < |rxs| ensures rxs[i].id != rxs[j].id {
      PrescriptionIdInjective(i, j);
    }
  }

  /** A lookup that fails, or finds an unnamed record, yields "Unknown". */
  lemma UnknownNames(patients: seq<Patient>, doctors: seq<Doctor>, f: PrescriptionForm)
    requires forall i :: 0 <= i < |patients| ==> patients[i].id != f.patientId
    ensures NameOrUnknown(PatientName(patients, f.patientId)) == "Unknown"
    ensures (forall i :: 0 <= i < |doctors| ==> doctors[i].id != f.doctorId) ==>
              NameOrUnknown(DoctorName(doctors, f.doctorId)) == "Unknown"
  {
  }
}

=== FILE: records.dfy ===
/** The prescription-records page: each prescription gets a status from its
    dates and the current time, the list is filtered by a case-insensitive
    search and two drop-down filters, and the statuses are tallied. */
module Records {
  import opened Wrappers
  import opened Registry
  import Seqs
  import Text

  datatype RxStatus = Active | Completed | FollowUpDue

  /** The status values as the status filter spells them. */
  function StatusName(s: RxStatus): string {
    match s
    case Active => "active"
    case Completed => "completed"
    case FollowUpDue => "follow-up"
  }

  /** Milliseconds in a day. */
  const DayMillis := 1000 * 60 * 60 * 24

  /** A prescription counts as completed once more than this many days have passed. */
  const ActiveDays := 30

  /** Dates are read through `toMillis`, which gives the milliseconds since the
      epoch of a date string, or `None` for an invalid date (for which every
      JavaScript comparison is false). `now` is `Date.now()`. */
  predicate FollowUpPending(rx: Prescription, now: int, toMillis: string -> Option<int>) {
    && rx.followUp.Some?
    && rx.followUp.value.date != ""
    && toMillis(rx.followUp.value.date).Some?
    && toMillis(rx.followUp.value.date).value > now
  }

  /** More than 30 days have passed since the prescription's date. */
  predicate Elapsed(rx: Prescription, now: int, toMillis: string -> Option<int>) {
    toMillis(rx.date).Some? && now - toMillis(rx.date).value > ActiveDays * DayMillis
  }

  /** `getStatus(rx)`: a pending follow-up wins; otherwise completed once more
      than 30 days old, and active until then. */
  function Status(rx: Prescription, now: int, toMillis: string -> Option<int>): (s: RxStatus)
    ensures s == FollowUpDue <==> FollowUpPending(rx, now, toMillis)
    ensures s == Completed <==> !FollowUpPending(rx, now, toMillis) && Elapsed(rx, now, toMillis)
    ensures s == Active <==> !FollowUpPending(rx, now, toMillis) && !Elapsed(rx, now, toMillis)
  {
    if rx.followUp.Some? && rx.followUp.value.date != ""
       && toMillis(rx.followUp.value.date).Some? && toMillis(rx.followUp.value.date).value > now
    then FollowUpDue
    else
      match toMillis(rx.date)
      case Some(t) => if now - t > ActiveDays * DayMillis then Completed else Active
      case None => Active
  }

  /** Time only moves a prescription forward: once completed it stays completed,
      and a follow-up still due later was already due earlier. */
  lemma StatusMonotoneInTime(rx: Prescription, now: int, now': int, toMillis: string -> Option<int>)
    requires now <= now'
    ensures Status(rx, now, toMillis) == Completed ==> Status(rx, now', toMillis) == Completed
    ensures Status(rx, now', toMillis) == FollowUpDue ==> Status(rx, now, toMillis) == FollowUpDue
  {
  }

  /** A prescription together with its computed status. */
  datatype RxRow = RxRow(rx: Prescription, status: RxStatus)

  /** `prescriptionsWithStatus`. */
  function WithStatus(rxs: seq<Prescription>, now: int, toMillis: string -> Option<int>): (rows: seq<RxRow>)
    ensures |rows| == |rxs|
    ensures forall i :: 0 <= i < |rxs| ==> rows[i].rx == rxs[i] && rows[i].status == Status(rxs[i], now, toMillis)
  {
    seq(|rxs|, i requires 0 <= i < |rxs| => RxRow(rxs[i], Status(rxs[i], now, toMillis)))
  }

  /** The search term occurs, ignoring ASCII case, in the patient's name, the doctor's name or the diagnosis. */
  predicate SearchHit(rx: Prescription, term: string) {
    var t := Text.LowerStr(term);
    || Text.Contains(Text.LowerStr(rx.patientName), t)
    || Text.Contains(Text.LowerStr(rx.doctorName), t)
    || Text.Contains(Text.LowerStr(rx.diagnosis), t)
  }

  /** The predicate of `filtered`. */
  predicate Matches(row: RxRow, term: string, patientFilter: string, statusFilter: string) {
    && SearchHit(row.rx, term)
    && (patientFilter == "all" || row.rx.patientId == patientFilter)
    && (statusFilter == "all" || StatusName(row.status) == statusFilter)
  }

  /** `filtered`: the rows matching the search and both filters, in order. */
  function Filtered(rows: seq<RxRow>, term: string, patientFilter: string, statusFilter: string): (r: seq<RxRow>)
    ensures |r| <= |rows|
    ensures forall i :: 0 <= i < |r| ==> r[i] in rows && Matches(r[i], term, patientFilter, statusFilter)
    ensures forall i :: 0 <= i < |rows| && Matches(rows[i], term, patientFilter, statusFilter) ==> rows[i] in r
  {
    Seqs.Filter((row: RxRow) => Matches(row, term, patientFilter, statusFilter), rows)
  }

  /** The filtered list keeps the order of the full list. */
  lemma FilteredIsSubsequence(rows: seq<RxRow>, term: string, patientFilter: string, statusFilter: string)
    ensures Seqs.SubsequenceOf(Filtered(rows, term, patientFilter, statusFilter), rows)
  {
    Seqs.FilterIsSubsequence((row: RxRow) => Matches(row, term, patientFilter, statusFilter), rows);
  }

  /** With the filters reset (empty search, both filters "all") nothing is filtered out. */
  lemma ResetFiltersKeepsAll(rows: seq<RxRow>)
    ensures Filtered(rows, "", "all", "all") == rows
  {
    forall i | 0 <= i < |rows| ensures Matches(rows[i], "", "all", "all") {
      Text.ContainsEmpty(Text.LowerStr(rows[i].rx.patientName));
    }
    Seqs.FilterKeepsAll((row: RxRow) => Matches(row, "", "all", "all"), rows);
  }

  datatype Stats = Stats(total: nat, active: nat, followUp: nat, completed: nat)

  function CountStatus(rows: seq<RxRow>, s: RxStatus): nat {
    Seqs.Count((row: RxRow) => row.status == s, rows)
  }

  /** The status tiles: each counts the rows with its status, and every row
      falls under exactly one status. */
  function Tally(rows: seq<RxRow>): (st: Stats)
    ensures st.total == |rows|
    ensures st.active == CountStatus(rows, Active)
    ensures st.followUp == CountStatus(rows, FollowUpDue)
    ensures st.completed == CountStatus(rows, Completed)
    ensures st.active + st.followUp + st.completed == st.total
  {
    StatusPartition(rows);
    Stats(|rows|, CountStatus(rows, Active), CountStatus(rows, FollowUpDue), CountStatus(rows, Completed))
  }

  lemma {:induction false} StatusPartition(rows: seq<RxRow>)
    ensures CountStatus(rows, Active) + CountStatus(rows, FollowUpDue) + CountStatus(rows, Completed) == |rows|
    decreases |rows|
  {
    if |rows| > 0 {
      StatusPartition(rows[1..]);
    }
  }

  /** Choosing a status in the filter (with no search and all patients) shows
      exactly as many rows as that status's tile counts. */
  lemma {:induction false} StatusFilterMatchesTile(rows: seq<RxRow>, s: RxStatus)
    ensures |Filtered(rows, "", "all", StatusName(s))| == CountStatus(rows, s)
    decreases |rows|
  {
    if |rows| > 0 {
      StatusFilterMatchesTile(rows[1..], s);
      Text.ContainsEmpty(Text.LowerStr(rows[0].rx.patientName));
      assert StatusName(rows[0].status) == StatusName(s) <==> rows[0].status == s;
    }
  }
}

=== FILE: registry.dfy ===
/** The records of the in-memory store the pages read and write: patients,
    doctors, appointments and prescriptions. The store's contents are not part
    of the model; every operation takes the arrays it reads as parameters. */
module Registry {
  import opened Wrappers
  import Seqs
  import Text

  datatype EmergencyContact = EmergencyContact(name: string, relationship: string, phone: string)

  datatype MedicalHistory = MedicalHistory(
    allergies: seq<string>,
    conditions: seq<string>,
    medications: seq<string>,
    surgeries: seq<string>)

  datatype Insurance = Insurance(provider: string, policyNumber: string, expiryDate: string)

  datatype Patient = Patient(
    id: string,
    name: string,
    gender: string,
    dob: string,
    bloodType: string,
    address: string,
    phone: string,
    email: string,
    emergencyContact: EmergencyContact,
    medicalHistory: Option<MedicalHistory>,
    insuranceDetails: Option<Insurance>,
    status: string,
    registeredDate: string)

  /** The doctor fields the modelled pages read. */
  datatype Doctor = Doctor(id: string, name: string)

  datatype Appointment = Appointment(
    id: string,
    patientId: string,
    doctorId: string,
    service: string,
    status: string)

  datatype Medication = Medication(
    name: string,
    dosage: string,
    frequency: string,
    duration: string,
    instructions: Option<string>)

  datatype FollowUp = FollowUp(date: string, notes: string)

  datatype Prescription = Prescription(
    id: string,
    patientId: string,
    patientName: string,
    doctorId: string,
    doctorName: string,
    date: string,
    diagnosis: string,
    medications: seq<Medication>,
    instructions: Option<string>,
    followUp: Option<FollowUp>,
    createdAt: string)

  /** Index `i` holds the first patient with id `id`. */
  predicate FirstPatient(patients: seq<Patient>, id: string, i: int) {
    0 <= i < |patients| && patients[i].id == id && forall j :: 0 <= j < i ==> patients[j].id != id
  }

  /** Index `i` holds the first doctor with id `id`. */
  predicate FirstDoctor(doctors: seq<Doctor>, id: string, i: int) {
    0 <= i < |doctors| && doctors[i].id == id && forall j :: 0 <= j < i ==> doctors[j].id != id
  }

  /** `patients.find(p => p.id === id)`: the first patient with the id, if any. */
  function FindPatient(patients: seq<Patient>, id: string): (r: Option<Patient>)
    ensures r.None? <==> forall i :: 0 <= i < |patients| ==> patients[i].id != id
    ensures r.Some? ==> exists i :: FirstPatient(patients, id, i) && r.value == patients[i]
    ensures forall i :: FirstPatient(patients, id, i) ==> r == Some(patients[i])
  {
    var r := Seqs.Find((p: Patient) => p.id == id, patients);
    assert r.Some? ==> exists i :: 0 <= i < |patients| && patients[i] == r.value && patients[i].id == id
                                   && forall j :: 0 <= j < i ==> patients[j].id != id;
    r
  }

  /** `doctors.find(d => d.id === id)`: the first doctor with the id, if any. */
  function FindDoctor(doctors: seq<Doctor>, id: string): (r: Option<Doctor>)
    ensures r.None? <==> forall i :: 0 <= i < |doctors| ==> doctors[i].id != id
    ensures r.Some? ==> exists i :: FirstDoctor(doctors, id, i) && r.value == doctors[i]
    ensures forall i :: FirstDoctor(doctors, id, i) ==> r == Some(doctors[i])
  {
    var r := Seqs.Find((d: Doctor) => d.id == id, doctors);
    assert r.Some? ==> exists i :: 0 <= i < |doctors| && doctors[i] == r.value && doctors[i].id == id
                                   && forall j :: 0 <= j < i ==> doctors[j].id != id;
    r
  }

  /** `conditions.some(c => c.toLowerCase().includes(keyword))`: some condition
      mentions `keyword`, ignoring ASCII case. */
  function Mentions(conditions: seq<string>, keyword: string): (r: bool)
    ensures r <==> exists i | 0 <= i < |conditions| :: Text.Contains(Text.LowerStr(conditions[i]), keyword)
    decreases |conditions|
  {
    if |conditions| == 0 then false
    else if Text.Contains(Text.LowerStr(conditions[0]), keyword) then true
    else
      var rest := Mentions(conditions[1..], keyword);
      assert forall i :: 1 <= i < |conditions| ==> conditions[i] == conditions[1..][i - 1];
      rest
  }
}

=== FILE: seqs.dfy ===
/** Generic sequence operations shared by the pages: `Array.prototype.filter`,
    `Array.prototype.find`, and the facts about them that the pages rely on. */
module Seqs {
  import opened Wrappers

  /** `a` can be obtained from `b` by deleting elements, keeping the order of the rest. */
  predicate SubsequenceOf<T(==)>(a: seq<T>, b: seq<T>)
    decreases |b|
  {
    if |a| == 0 then true
    else if |b| == 0 then false
    else (a[0] == b[0] && SubsequenceOf(a[1..], b[1..])) || SubsequenceOf(a, b[1..])
  }

  /** `s.filter(p)`: the elements of `s` satisfying `p`, in their original order. */
  function Filter<T>(p: T -> bool, s: seq<T>): (r: seq<T>)
    ensures |r| <= |s|
    ensures forall i :: 0 <= i < |r| ==> r[i] in s && p(r[i])
    ensures forall i :: 0 <= i < |s| && p(s[i]) ==> s[i] in r
    decreases |s|
  {
    if |s| == 0 then []
    else if p(s[0]) then [s[0]] + Filter(p, s[1..])
    else Filter(p, s[1..])
  }

  /** The number of elements of `s` satisfying `p` (`s.filter(p).length`). */
  function Count<T>(p: T -> bool, s: seq<T>): nat {
    |Filter(p, s)|
  }

  /** A filter never reorders: its result is a subsequence of its input. */
  lemma {:induction false} FilterIsSubsequence<T>(p: T -> bool, s: seq<T>)
    ensures SubsequenceOf(Filter(p, s), s)
    decreases |s|
  {
    if |s| > 0 {
      FilterIsSubsequence(p, s[1..]);
      if p(s[0]) {
        var r := Filter(p, s);
        assert r[0] == s[0] && r[1..] == Filter(p, s[1..]);
      } else {
        var r := Filter(p, s);
        if |r| > 0 {
          assert r == Filter(p, s[1..]);
        }
      }
    }
  }

  /** Filtering keeps everything exactly when every element passes. */
  lemma {:induction false} FilterKeepsAll<T>(p: T -> bool, s: seq<T>)
    ensures Filter(p, s) == s <==> forall i :: 0 <= i < |s| ==> p(s[i])
    ensures |Filter(p, s)| == |s| <==> forall i :: 0 <= i < |s| ==> p(s[i])
    decreases |s|
  {
    if |s| > 0 {
      FilterKeepsAll(p, s[1..]);
      if !p(s[0]) {
        assert |Filter(p, s)| <= |s[1..]| < |s|;
      } else {
        assert forall i :: 1 <= i < |s| ==> s[i] == s[1..][i - 1];
      }
    }
  }

  /** Filtering drops everything exactly when no element passes. */
  lemma {:induction false} FilterDropsAll<T>(p: T -> bool, s: seq<T>)
    ensures Filter(p, s) == [] <==> forall i :: 0 <= i < |s| ==> !p(s[i])
    decreases |s|
  {
    if |s| > 0 {
      FilterDropsAll(p, s[1..]);
      assert forall i :: 1 <= i < |s| ==> s[i] == s[1..][i - 1];
    }
  }

  /** Filtering twice by the same predicate is filtering once. */
  lemma {:induction false} FilterIdempotent<T>(p: T -> bool, s: seq<T>)
    ensures Filter(p, Filter(p, s)) == Filter(p, s)
  {
    FilterKeepsAll(p, Filter(p, s));
  }

  /** A filter of a sequence strictly ordered by `key` is strictly ordered by `key`. */
  lemma {:induction false} FilterKeepsOrder<T>(p: T -> bool, key: T -> int, s: seq<T>)
    requires forall i, j :: 0 <= i < j < |s| ==> key(s[i]) < key(s[j])
    ensures forall i, j :: 0 <= i < j < |Filter(p, s)| ==> key(Filter(p, s)[i]) < key(Filter(p, s)[j])
    decreases |s|
  {
    if |s| > 0 {
      var tail := Filter(p, s[1..]);
      FilterKeepsOrder(p, key, s[1..]);
      forall x | x in tail ensures key(s[0]) < key(x) {
        var k :| 0 <= k < |s[1..]| && s[1..][k] == x;
        assert s[k + 1] == x;
      }
    }
  }

  /** Filters by complementary predicates split a sequence: their counts add up to its length. */
  lemma {:induction false} CountComplement<T>(p: T -> bool, q: T -> bool, s: seq<T>)
    requires forall i :: 0 <= i < |s| ==> q(s[i]) == !p(s[i])
    ensures Count(p, s) + Count(q, s) == |s|
    decreases |s|
  {
    if |s| > 0 {
      CountComplement(p, q, s[1..]);
    }
  }

  /** A stronger predicate keeps no more elements than a weaker one. */
  lemma {:induction false} CountMonotone<T>(p: T -> bool, q: T -> bool, s: seq<T>)
    requires forall i :: 0 <= i < |s| ==> p(s[i]) ==> q(s[i])
    ensures Count(p, s) <= Count(q, s)
    decreases |s|
  {
    if |s| > 0 {
      CountMonotone(p, q, s[1..]);
    }
  }

  /** Predicates that never hold together select disjoint parts: their counts add up to at most the length. */
  lemma {:induction false} CountDisjoint<T>(p: T -> bool, q: T -> bool, s: seq<T>)
    requires forall i :: 0 <= i < |s| ==> !(p(s[i]) && q(s[i]))
    ensures Count(p, s) + Count(q, s) <= |s|
    decreases |s|
  {
    if |s| > 0 {
      CountDisjoint(p, q, s[1..]);
    }
  }

  /** `s.find(p)`: the first element satisfying `p`, or `None` when there is none. */
  function Find<T>(p: T -> bool, s: seq<T>): (r: Option<T>)
    ensures r.None? <==> forall i :: 0 <= i < |s| ==> !p(s[i])
    ensures r.Some? ==> exists i :: 0 <= i < |s| && s[i] == r.value && p(s[i]) && forall j :: 0 <= j < i ==> !p(s[j])
    decreases |s|
  {
    if |s| == 0 then None
    else if p(s[0]) then Some(s[0])
    else
      var r := Find(p, s[1..]);
      assert r.Some? ==> exists i :: 0 <= i < |s[1..]| && s[1..][i] == r.value && p(s[1..][i]) && forall j :: 0 <= j < i ==> !p(s[1..][j]);
      assert forall i :: 0 <= i < |s[1..]| ==> s[1..][i] == s[i + 1];
      r
  }

  /** Filtering distributes over appending one element. */
  lemma {:induction false} FilterSnoc<T>(p: T -> bool, s: seq<T>, x: T)
    ensures Filter(p, s + [x]) == Filter(p, s) + (if p(x) then [x] else [])
    decreases |s|
  {
    if |s| == 0 {
      assert s + [x] == [x];
    } else {
      assert (s + [x])[1..] == s[1..] + [x];
      FilterSnoc(p, s[1..], x);
    }
  }

  /** No value occurs twice. */
  predicate NoDuplicates<T(==)>(s: seq<T>) {
    forall i, j :: 0 <= i < j < |s| ==> s[i] != s[j]
  }

  /** `[...new Set(s)]`: each value once, in the order of its first occurrence. */
  function Dedup<T(==)>(s: seq<T>): (r: seq<T>)
    ensures NoDuplicates(r)
    ensures |r| <= |s|
    ensures forall i :: 0 <= i < |r| ==> r[i] in s
    ensures forall i :: 0 <= i < |s| ==> s[i] in r
    decreases |s|
  {
    if |s| == 0 then []
    else
      var d := Dedup(s[..|s| - 1]);
      assert forall i :: 0 <= i < |s| - 1 ==> s[i] == s[..|s| - 1][i];
      if s[|s| - 1] in d then d else d + [s[|s| - 1]]
  }

  /** `s[k]` is the first occurrence of `x` in `s`. */
  predicate FirstAt<T(==)>(s: seq<T>, x: T, k: int) {
    0 <= k < |s| && s[k] == x && forall j :: 0 <= j < k ==> s[j] != x
  }

  /** The de-duplicated values come in the order of their first occurrences. */
  lemma {:induction false} DedupFirstOrder<T>(s: seq<T>)
    ensures forall i, j, k, l :: 0 <= i < j < |Dedup(s)| && FirstAt(s, Dedup(s)[i], k) && FirstAt(s, Dedup(s)[j], l) ==> k < l
    decreases |s|
  {
    if |s| > 0 {
      var init := s[..|s| - 1];
      var last := s[|s| - 1];
      var d := Dedup(init);
      DedupFirstOrder(init);
      assert forall i :: 0 <= i < |init| ==> init[i] == s[i];
      forall x, k | x in init && FirstAt(s, x, k) ensures FirstAt(init, x, k) {
        var m :| 0 <= m < |init| && init[m] == x;
        assert s[m] == x;
      }
      var r := Dedup(s);
      forall i, j, k, l | 0 <= i < j < |r| && FirstAt(s, r[i], k) && FirstAt(s, r[j], l) ensures k < l {
        assert r[i] == d[i] && r[i] in init;
        if j < |d| {
          assert r[j] == d[j] && r[j] in init;
        } else {
          assert r[j] == last && last !in init;
          assert l == |s| - 1;
        }
      }
    }
  }

  /** A sequence without duplicates is its own set-ordering. */
  lemma {:induction false} DedupFixpoint<T>(s: seq<T>)
    requires NoDuplicates(s)
    ensures Dedup(s) == s
    decreases |s|
  {
    if |s| > 0 {
      var init := s[..|s| - 1];
      var last := s[|s| - 1];
      assert forall i :: 0 <= i < |init| ==> init[i] == s[i];
      assert NoDuplicates(init) by {
        forall i, j | 0 <= i < j < |init| ensures init[i] != init[j] {
          assert init[i] == s[i] && init[j] == s[j];
        }
      }
      DedupFixpoint(init);
      assert last !in init by {
        forall i | 0 <= i < |init| ensures init[i] != last {
          assert init[i] == s[i];
        }
      }
      assert s == init + [last];
    }
  }

  /** The first value always leads the de-duplicated sequence. */
  lemma {:induction false} DedupHead<T>(s: seq<T>)
    requires |s| > 0
    ensures Dedup(s)[0] == s[0]
    decreases |s|
  {
    if |s| > 1 {
      DedupHead(s[..|s| - 1]);
    }
  }
}

=== FILE: text.dfy ===
/** The JavaScript string operations the pages use, on `string = seq<char>`:
    `toLowerCase` (ASCII letters), `includes`, `trim`, `split(",")`, `join`,
    `padStart`, and the decimal rendering of integers in template literals. */
module Text {

  /** ASCII case folding of one character; other characters are kept. */
  function Lower(c: char): char {
    if 'A' <= c <= 'Z' then (c as int + 32) as char else c
  }

  /** `s.toLowerCase()` for ASCII text. */
  function LowerStr(s: string): (r: string)
    ensures |r| == |s|
    ensures forall i :: 0 <= i < |s| ==> r[i] == Lower(s[i])
  {
    seq(|s|, i requires 0 <= i < |s| => Lower(s[i]))
  }

  /** ASCII upper-casing of one character; other characters are kept. */
  function Upper(c: char): char {
    if 'a' <= c <= 'z' then (c as int - 32) as char else c
  }

  /** `s.toUpperCase()` for ASCII text. */
  function UpperStr(s: string): (r: string)
    ensures |r| == |s|
    ensures forall i :: 0 <= i < |s| ==> r[i] == Upper(s[i])
    ensures forall i :: 0 <= i < |r| ==> !('a' <= r[i] <= 'z')
  {
    seq(|s|, i requires 0 <= i < |s| => Upper(s[i]))
  }

  /** `hay.includes(needle)`: `needle` occurs as a contiguous block of `hay`. */
  predicate Contains(hay: string, needle: string) {
    exists i | 0 <= i <= |hay| - |needle| :: OccursAt(hay, needle, i)
  }

  /** `needle` occurs in `hay` starting at index `i`. */
  predicate OccursAt(hay: string, needle: string, i: nat) {
    i + |needle| <= |hay| && hay[i..i + |needle|] == needle
  }

  /** Every string includes the empty string. */
  lemma ContainsEmpty(hay: string)
    ensures Contains(hay, "")
  {
    assert OccursAt(hay, "", 0);
  }

  /** The characters JavaScript's `trim` removes: white space and line terminators. */
  predicate IsSpace(c: char) {
    || c in {'\t', '\n', '\U{000B}', '\U{000C}', '\r', ' ', '\U{00A0}', '\U{1680}'}
    || ('\U{2000}' <= c <= '\U{200A}')
    || c in {'\U{2028}', '\U{2029}', '\U{202F}', '\U{205F}', '\U{3000}', '\U{FEFF}'}
  }

  /** The first index at or after `i` that does not hold a space, or `|s|`. */
  function SkipSpaces(s: string, i: nat): (lo: nat)
    requires i <= |s|
    ensures i <= lo <= |s|
    ensures forall k :: i <= k < lo ==> IsSpace(s[k])
    ensures lo < |s| ==> !IsSpace(s[lo])
    decreases |s| - i
  {
    if i < |s| && IsSpace(s[i]) then SkipSpaces(s, i + 1) else i
  }

  /** The end of `s[lo..j]` once trailing spaces are dropped. */
  function DropTrailing(s: string, lo: nat, j: nat): (hi: nat)
    requires lo <= j <= |s|
    ensures lo <= hi <= j
    ensures forall k :: hi <= k < j ==> IsSpace(s[k])
    ensures hi > lo ==> !IsSpace(s[hi - 1])
    decreases j
  {
    if j > lo && IsSpace(s[j - 1]) then DropTrailing(s, lo, j - 1) else j
  }

  /** `r` is the block of `s` starting at `lo`, and only spaces lie outside it. */
  predicate TrimmedAt(s: string, r: string, lo: nat) {
    && lo + |r| <= |s|
    && s[lo..lo + |r|] == r
    && (forall k :: 0 <= k < lo ==> IsSpace(s[k]))
    && (forall k :: lo + |r| <= k < |s| ==> IsSpace(s[k]))
  }

  /** `s.trim()`: the block of `s` left after removing spaces at both ends. */
  function Trim(s: string): (r: string)
    ensures |r| <= |s|
    ensures |r| > 0 ==> !IsSpace(r[0]) && !IsSpace(r[|r| - 1])
    ensures |r| == 0 ==> forall k :: 0 <= k < |s| ==> IsSpace(s[k])
    ensures exists lo :: TrimmedAt(s, r, lo)
  {
    var lo := SkipSpaces(s, 0);
    var hi := DropTrailing(s, lo, |s|);
    assert TrimmedAt(s, s[lo..hi], lo);
    s[lo..hi]
  }

  /** Trimming an already-trimmed string changes nothing. */
  lemma TrimIdempotent(s: string)
    ensures Trim(Trim(s)) == Trim(s)
  {
    var t := Trim(s);
    var lo := SkipSpaces(t, 0);
    if |t| > 0 {
      assert lo == 0;
      assert DropTrailing(t, 0, |t|) == |t|;
    }
  }

  /** A string with no space at either end (the empty string included). */
  predicate Clean(s: string) {
    |s| == 0 || (!IsSpace(s[0]) && !IsSpace(s[|s| - 1]))
  }

  /** Trimming removes exactly the spaces around a clean middle block. */
  lemma TrimAround(s: string, a: nat, b: nat)
    requires a <= b <= |s|
    requires forall k :: 0 <= k < a ==> IsSpace(s[k])
    requires forall k :: b <= k < |s| ==> IsSpace(s[k])
    requires Clean(s[a..b])
    ensures Trim(s) == s[a..b]
  {
    var lo := SkipSpaces(s, 0);
    if a < b {
      assert s[a..b][0] == s[a];
      assert s[a..b][b - a - 1] == s[b - 1];
      assert lo == a;
      var hi := DropTrailing(s, lo, |s|);
      assert hi == b;
    } else {
      assert lo == |s|;
    }
  }

  /** A clean string is its own trim, and so is one with spaces put in front. */
  lemma TrimClean(s: string, spaces: string)
    requires Clean(s)
    requires forall k :: 0 <= k < |spaces| ==> IsSpace(spaces[k])
    ensures Trim(s) == s
    ensures Trim(spaces + s) == s
  {
    assert s[0..|s|] == s;
    TrimAround(s, 0, |s|);
    var t := spaces + s;
    assert t[|spaces|..|t|] == s;
    TrimAround(t, |spaces|, |t|);
  }

  /** The number of occurrences of `c` in `s`. */
  function Occurrences(s: string, c: char): nat
    decreases |s|
  {
    if |s| == 0 then 0 else (if s[0] == c then 1 else 0) + Occurrences(s[1..], c)
  }

  /** `parts.join(sep)`; the join of no parts is the empty string. */
  function Join(parts: seq<string>, sep: string): string
    decreases |parts|
  {
    if |parts| == 0 then ""
    else if |parts| == 1 then parts[0]
    else parts[0] + sep + Join(parts[1..], sep)
  }

  /** A join starts with the first part, followed by the separator when there
      is a second part, and ends with the last part. */
  lemma {:induction false} JoinEnds(parts: seq<string>, sep: string)
    requires |parts| >= 1
    ensures var r := Join(parts, sep);
            && |parts[0]| <= |r| && r[..|parts[0]|] == parts[0]
            && |parts[|parts| - 1]| <= |r| && r[|r| - |parts[|parts| - 1]|..] == parts[|parts| - 1]
            && (|parts| >= 2 ==> |r| >= |parts[0]| + |sep| && r[|parts[0]|..|parts[0]| + |sep|] == sep)
    decreases |parts|
  {
    if |parts| >= 2 {
      var rest := Join(parts[1..], sep);
      JoinEnds(parts[1..], sep);
      var r := parts[0] + sep + rest;
      assert Join(parts, sep) == r;
      assert r[..|parts[0]|] == parts[0];
      assert r[|parts[0]|..|parts[0]| + |sep|] == sep;
      assert parts[1..][|parts[1..]| - 1] == parts[|parts| - 1];
      assert r[|r| - |parts[|parts| - 1]|..] == rest[|rest| - |parts[|parts| - 1]|..];
    }
  }

  /** `s.split(sep)` for a one-character separator: the maximal separator-free
      blocks of `s`, one more than there are separators. */
  function Split(s: string, sep: char): (r: seq<string>)
    ensures |r| == Occurrences(s, sep) + 1
    ensures forall k :: 0 <= k < |r| ==> sep !in r[k]
    ensures Join(r, [sep]) == s
    decreases |s|
  {
    if |s| == 0 then [""]
    else
      var rest := Split(s[1..], sep);
      if s[0] == sep then
        var r := [""] + rest;
        assert r[1..] == rest;
        assert Join(r, [sep]) == "" + [sep] + Join(rest, [sep]);
        assert s == [s[0]] + s[1..];
        r
      else
        var r := [[s[0]] + rest[0]] + rest[1..];
        assert sep !in [s[0]] + rest[0];
        assert Join(r, [sep]) == [s[0]] + Join(rest, [sep]) by {
          if |rest| == 1 {
          } else {
            assert r[1..] == rest[1..];
            assert Join(rest, [sep]) == rest[0] + [sep] + Join(rest[1..], [sep]);
          }
        }
        assert s == [s[0]] + s[1..];
        r
  }

  /** Splitting a join of separator-free parts recovers the parts. */
  lemma {:induction false} SplitJoin(parts: seq<string>, sep: char)
    requires |parts| >= 1
    requires forall k :: 0 <= k < |parts| ==> sep !in parts[k]
    ensures Split(Join(parts, [sep]), sep) == parts
    decreases |parts|, |parts[0]|
  {
    if |parts[0]| == 0 {
      if |parts| > 1 {
        var tail := Join(parts[1..], [sep]);
        assert Join(parts, [sep]) == [sep] + tail;
        SplitJoin(parts[1..], sep);
        SplitSepFirst(tail, sep);
        assert parts == [""] + parts[1..];
      }
    } else {
      var c := parts[0][0];
      var shorter := [parts[0][1..]] + parts[1..];
      assert shorter[1..] == parts[1..];
      SplitJoin(shorter, sep);
      JoinCons(c, parts, shorter, sep);
      SplitCharFirst(c, Join(shorter, [sep]), sep);
      assert [c] + shorter[0] == parts[0];
      assert parts == [parts[0]] + shorter[1..];
    }
  }

  /** Taking the first character off the first part takes it off the join. */
  lemma JoinCons(c: char, parts: seq<string>, shorter: seq<string>, sep: char)
    requires |parts| >= 1 && |parts[0]| > 0 && parts[0][0] == c
    requires shorter == [parts[0][1..]] + parts[1..]
    ensures Join(parts, [sep]) == [c] + Join(shorter, [sep])
  {
    if |parts| > 1 {
      assert shorter[1..] == parts[1..];
      assert Join(parts, [sep]) == parts[0] + [sep] + Join(parts[1..], [sep]);
      assert Join(shorter, [sep]) == parts[0][1..] + [sep] + Join(parts[1..], [sep]);
      assert parts[0] == [c] + parts[0][1..];
    } else {
      assert parts[0] == [c] + parts[0][1..];
    }
  }

  /** A leading separator splits off an empty first part. */
  lemma SplitSepFirst(t: string, sep: char)
    ensures Split([sep] + t, sep) == [""] + Split(t, sep)
  {
    assert ([sep] + t)[1..] == t;
  }

  /** A leading non-separator joins the first part of the rest. */
  lemma SplitCharFirst(c: char, t: string, sep: char)
    requires c != sep
    ensures Split([c] + t, sep) == [[c] + Split(t, sep)[0]] + Split(t, sep)[1..]
  {
    assert ([c] + t)[1..] == t;
  }

  /** The first part of a split is a prefix of the split string. */
  lemma SplitFirstIsPrefix(s: string, sep: char)
    ensures |Split(s, sep)[0]| <= |s|
    ensures s[..|Split(s, sep)[0]|] == Split(s, sep)[0]
    ensures |Split(s, sep)[0]| < |s| ==> s[|Split(s, sep)[0]|] == sep
  {
    var r := Split(s, sep);
    if |r| > 1 {
      assert s == r[0] + [sep] + Join(r[1..], [sep]);
    }
  }

  /** `s` padded on the left with `c` to at least `n` characters (`padStart`). */
  function PadStart(s: string, n: nat, c: char): (r: string)
    ensures |r| == if |s| >= n then |s| else n
    ensures r[|r| - |s|..] == s
    ensures forall k :: 0 <= k < |r| - |s| ==> r[k] == c
  {
    if |s| >= n then s else seq(n - |s|, _ => c) + s
  }

  predicate IsDigit(c: char) {
    '0' <= c <= '9'
  }

  predicate AllDigits(s: string) {
    forall k :: 0 <= k < |s| ==> IsDigit(s[k])
  }

  function DigitChar(d: nat): (c: char)
    requires d < 10
    ensures IsDigit(c) && c as int - '0' as int == d
  {
    ('0' as int + d) as char
  }

  /** The number a string of decimal digits denotes (leading zeros allowed). */
  function DecimalValue(s: string): nat
    requires AllDigits(s)
    decreases |s|
  {
    if |s| == 0 then 0
    else DecimalValue(s[..|s| - 1]) * 10 + (s[|s| - 1] as int - '0' as int)
  }

  /** The decimal rendering of a natural number, as a template literal writes it. */
  function NatToString(n: nat): (r: string)
    ensures |r| >= 1 && AllDigits(r)
    ensures |r| > 1 ==> r[0] != '0'
    ensures DecimalValue(r) == n
    decreases n
  {
    if n < 10 then [DigitChar(n)]
    else
      var r := NatToString(n / 10) + [DigitChar(n % 10)];
      assert r[..|r| - 1] == NatToString(n / 10);
      r
  }

  /** The decimal rendering of an integer, with a leading `-` when negative. */
  function IntToString(n: int): (r: string)
    ensures |r| >= 1
    ensures n >= 0 ==> AllDigits(r) && DecimalValue(r) == n
    ensures n < 0 ==> r[0] == '-' && AllDigits(r[1..]) && DecimalValue(r[1..]) == -n
    ensures n >= 0 && |r| > 1 ==> r[0] != '0'
    ensures n < 0 ==> |r| >= 2 && (|r| > 2 ==> r[1] != '0')
  {
    if n < 0 then "-" + NatToString(-n) else NatToString(n)
  }

  /** Leading zeros do not change the denoted number. */
  lemma {:induction false} DecimalValueLeadingZeros(z: nat, s: string)
    requires AllDigits(s)
    ensures AllDigits(seq(z, _ => '0') + s)
    ensures DecimalValue(seq(z, _ => '0') + s) == DecimalValue(s)
    decreases |s|
  {
    var zs: string := seq(z, _ => '0');
    var t := zs + s;
    assert AllDigits(t) by {
      forall k | 0 <= k < |t| ensures IsDigit(t[k]) {
        if k < z { assert t[k] == zs[k]; } else { assert t[k] == s[k - z]; }
      }
    }
    if |s| == 0 {
      assert t == zs;
      ZerosValue(z);
    } else {
      assert t[..|t| - 1] == zs + s[..|s| - 1];
      DecimalValueLeadingZeros(z, s[..|s| - 1]);
    }
  }

  /** A string of zeros denotes zero. */
  lemma {:induction false} ZerosValue(z: nat)
    ensures AllDigits(seq(z, _ => '0'))
    ensures DecimalValue(seq(z, _ => '0')) == 0
    decreases z
  {
    if z > 0 {
      var zs: string := seq(z, _ => '0');
      assert zs[..z - 1] == seq(z - 1, _ => '0');
      ZerosValue(z - 1);
    }
  }
}

=== FILE: wrappers.dfy ===
/** Optional values: the model's rendering of JavaScript's `undefined`
    for optional record fields and of `Array.prototype.find` misses. */
module Wrappers {

  datatype Option<+T> = None | Some(value: T) {

    /** The wrapped value, or `default` when there is none (JavaScript's `?? default`). */
    function GetOr(default: T): T {
      match this
      case Some(v) => v
      case None => default
    }
  }
}
